=== FILE: README.md ===
# update-holochain-versions, modelled in Dafny

`update-holochain-versions` regenerates the Nix expressions that pin Holochain's
sources. Three pieces of pure string logic sit at its core, and this project models them:

- **The path query `VersionUpdater::get_string_at_path`.** It scans the child
  nodes of a parsed Nix document once and keeps three pieces of state:
  - an attribute-set level counter;
  - the next level;
  - the values matched at level 0.
  It returns the text of the first value at a level d > 0 whose key equals the
  path segment of its level and whose parent is the d-th value recorded, with
  surrounding `\` and `"` stripped. Values are recorded at level 0 only. Module `NixParser` (file `nix_parser.dfy`) writes the walk as a fold:
  - `StepNode` handles one node;
  - `Run` folds it over a node sequence;
  - `GetStringAtPath` splits the path on `.` and runs the fold.
  Its outcome is `Found(text)`, `NotFound`, or `Malformed`. `Malformed` covers
  the `unwrap`, the `assert_eq!` and the `panic!`, which abort the program.
- **The `GitRev` parser and the `git-rev-helper` output.** `GitRev::from_str` splits
  its input at the first `:`. It lower-cases each part, trims it and removes
  every `"`, and accepts only the tags `branch` and `commit`. The helper
  re-parses the serialised `GitRev` and writes `src.branch = "<p>"` or
  `src.manual = "<p>"`. Module `GitRevs` (file `git_rev.dfy`) models both.
- **The cargoLock table.** This is the closure that turns the text of the
  `holochain.cargoLock` block into a key → value map. It:
  1. strips `{`, `}`, space, `\n` and `\r` from the ends;
  2. splits on `;` and trims each piece;
  3. keeps the pieces that contain an `=`;
  4. splits each kept piece at its first `=`;
  5. collects the pairs into a map, where a later key wins.

  Module `CargoLock` (file `cargo_lock.dfy`) models it, together with the
  step that turns the lookup's outcome into the output hashes.

Rust's `str` operations are modelled in module `Text` (file `text.dfy`):
`split`, `split_once`/`splitn(2, _)`, `trim_matches`, `trim`, `to_lowercase`
and `replace(c, "")`. Their semantics are restricted to ASCII. `Wrappers` holds
`Option` and `Result`. `NixParserExamples` works through concrete
queries. They include the end-to-end path from a rendered `cargoLock` block to
its table, for a stream with no attribute set between `holochain`'s set and
the `cargoLock` pair, and nvfetcher's layout, in which a set before
`cargoLock` makes the lookup miss it.

The model follows the code where the code and the documented intent differ:

- **No last-segment check.** The walk returns at the first level > 0 match. It
  never checks that the match is on the last path segment, so the text of an
  intermediate attribute set can come back for a longer path.
- **A parent mismatch aborts.** When a recorded value differs from the
  parent's text, `assert_eq!` aborts the program; the walk does not skip that
  node. The model gives `Malformed`.
- **Only level 0 records values.** Values are recorded only at level 0. A
  match at level d > 0 is checked against the d-th value recorded for the
  first segment. Only for d = 1 is that the value one level up; at level 2
  and deeper the check reads a later level-0 match, not anything found at the
  level above.

The Nix document reaches the model as a flat sequence of `Node`s. Each node is
one of:
- an attribute set;
- a key-value pair carrying the key's components, the text of its value and the
  text of its parent;
- anything else.

The rnix parser that produces the nodes is not part of this model.

## Model

| member | source | states |
|---|---|---|
| Text.Split | crates/update-holochain-versions/src/nix_parser.rs:31 | `split` yields at least one piece and no piece holds the separator; with JoinSplit and SplitJoin it is the inverse of joining |
| Text.SplitCount | crates/update-holochain-versions/src/nix_parser.rs:31 | the path splits into one more segment than it has `.`s, empty segments included |
| Text.JoinSplit | crates/update-holochain-versions/src/nix_parser.rs:31 | joining the segments with `.` gives the path back, so no character is lost or reordered by the split |
| Text.SplitJoin | crates/update-holochain-versions/src/main.rs:280 | splitting `;`-free pieces joined by `;` yields exactly those pieces |
| Text.SplitOnce | crates/update-holochain-versions/src/main.rs:61-62 | `splitn(2, ':')`/`split_once`: absent exactly when the separator is absent; otherwise the input is head, separator, tail, and the head holds no separator |
| Text.SplitOnceUnique | crates/update-holochain-versions/src/main.rs:61-62 | any decomposition at a separator-free head is the one found, so the split is at the first separator |
| Text.TrimMatches | crates/update-holochain-versions/src/main.rs:279 | the result is a contiguous slice of the input, starting after the longest stripped prefix; everything after it is stripped characters; neither end of the result is a stripped character |
| Text.Trim | crates/update-holochain-versions/src/main.rs:64 | `trim` leaves neither end of its result whitespace and changes nothing whose ends are not whitespace |
| Text.TrimMatchesCore | crates/update-holochain-versions/src/main.rs:279 | padding made only of stripped characters around a text whose ends are not stripped is removed exactly |
| Text.TrimMatchesPadded | crates/update-holochain-versions/src/main.rs:279 | padding made only of stripped characters around any text, including text that is itself all padding, leaves the trimmed result unchanged |
| Text.TrimPadded | crates/update-holochain-versions/src/main.rs:64 | `trim` gives the same result with or without whitespace padding around the text |
| Text.Lower | crates/update-holochain-versions/src/main.rs:63 | `to_lowercase` keeps the length, maps each character on its own, leaves no upper-case letter and changes nothing without one |
| Text.LowerNormalises | crates/update-holochain-versions/src/main.rs:63 | lower-cased text has no upper-case letter, text without one is unchanged, and lower-casing is idempotent |
| Text.RemoveAll | crates/update-holochain-versions/src/main.rs:65 | `replace('"', "")` leaves no `"`, shortens the text by the number of `"`s, adds no character, and is the identity on text without `"` |
| Text.RemoveAllAppend | crates/update-holochain-versions/src/main.rs:65 | removing a character distributes over concatenation |
| NixParser.KeyText | crates/update-holochain-versions/src/nix_parser.rs:57-62 | a key's text holds only characters of its identifier components, and a key without identifiers has the empty text |
| NixParser.KeyTextAppend | crates/update-holochain-versions/src/nix_parser.rs:57-62 | a key's text is the separator-free concatenation of its components' texts |
| NixParser.KeyTextComponent | crates/update-holochain-versions/src/nix_parser.rs:57-62 | an identifier component contributes its name and a non-identifier component contributes nothing |
| NixParser.TrimQuotes | crates/update-holochain-versions/src/nix_parser.rs:82-86 | the returned text has no `\` or `"` at either end, adds no character to the value, and equals the value when neither end of the value is one of those |
| NixParser.TrimQuotesSlice | crates/update-holochain-versions/src/nix_parser.rs:82-86 | the returned text is the contiguous slice of the value left after dropping the run of `\` and `"` at each end |
| NixParser.Enter | crates/update-holochain-versions/src/nix_parser.rs:39-43 | an attribute set moves the level to the next level and the next level one further, leaving the recorded values alone; any other node leaves the state unchanged |
| NixParser.StepNode | crates/update-holochain-versions/src/nix_parser.rs:39-101 | counters move only on attribute sets; a level without a segment skips the node; only a level-0 match with a value grows the matched list; `Found`/`NotFound` need a level > 0 match whose recorded parent equals the parent text; `Malformed` holds exactly for a level-0 match without value, a level > 0 match without parent, or a recorded entry that differs from the parent. Conversely, a level-0 match with a value records it; a level d > 0 match whose parent is the d-th recorded value returns its trimmed value, or `NotFound` without one; any other node, and a level > 0 match with nothing recorded for its level, is passed over |
| NixParser.Run | crates/update-holochain-versions/src/nix_parser.rs:33-44 | after the whole sequence, `nextLevel` has grown by the number of attribute sets and `level` is one less, or unchanged if none; the matched list is only ever extended |
| NixParser.LevelsAfter | crates/update-holochain-versions/src/nix_parser.rs:33-44 | from the initial state, after k ≥ 1 attribute sets `nextLevel == k` and `level == k - 1`, and both stay 0 with none |
| NixParser.RunAppend | crates/update-holochain-versions/src/nix_parser.rs:39-102 | scanning a concatenation is scanning the first part and then the rest from where it left off, unless it returned |
| NixParser.FirstStopWins | crates/update-holochain-versions/src/nix_parser.rs:39-102 | when the scan returns at node i, the result is that node's step from the state built by the nodes before it; later nodes are never consulted |
| NixParser.StopHasNode | crates/update-holochain-versions/src/nix_parser.rs:81-94 | every return happens at some node of the sequence |
| NixParser.GetStringAtPath | crates/update-holochain-versions/src/nix_parser.rs:30-109 | running out of nodes without a return is `NotFound`; otherwise the node the walk returns at decides; a found value always comes from a reached match at some level d > 0 whose parent is the d-th recorded value; the first such match reached gives its trimmed value, or `NotFound` when the pair has no value |
| NixParser.FoundHasWitness | crates/update-holochain-versions/src/nix_parser.rs:74-91 | a walk that returns `Found(s)` does so at a reached node that is a level d > 0 key match on its level's segment, whose parent is the d-th recorded value and whose trimmed value is `s` |
| NixParser.FoundAtFirst | crates/update-holochain-versions/src/nix_parser.rs:66-87 | the first such match the walk reaches returns its value with `\` and `"` trimmed |
| NixParser.NotFoundAtFirst | crates/update-holochain-versions/src/nix_parser.rs:80-90 | the first such match the walk reaches returns `None` when the pair has no value |
| NixParser.FoundNeedsTwoSegments | crates/update-holochain-versions/src/nix_parser.rs:66-73 | a query can only succeed for a path with at least two segments |
| NixParser.SingleSegmentNeverFound | crates/update-holochain-versions/src/nix_parser.rs:66-73 | a path without `.` never yields `Found` |
| NixParser.PathSegments | crates/update-holochain-versions/src/nix_parser.rs:31 | the path has one more segment than `.`s, and joining them gives the path back |
| NixParserExamples.ExampleNestedRevision | crates/update-holochain-versions/src/nix_parser.rs:373-386 | `develop.rev` in `{ develop = { rev = "abc"; }; }` yields `abc` without quotes |
| NixParserExamples.ExampleBlockVerbatim | crates/update-holochain-versions/src/nix_parser.rs:421-426 | an attribute-set value comes back verbatim, braces and inner quotes included |
| NixParserExamples.ExampleSiblingMismatchIsFatal | crates/update-holochain-versions/src/nix_parser.rs:74-79 | for two sibling sets both defining `rev`, in a stream that lists both outer pairs before either inner set, querying the second sibling's `rev` aborts at the first `rev`, whose parent is the wrong set |
| NixParserExamples.ExampleSiblingsInDocumentOrder | crates/update-holochain-versions/src/nix_parser.rs:40-52 | for the same siblings in document order, each outer pair followed by its own set, the second sibling is met at level 1, nothing is recorded, and `main.rev` is not found |
| NixParserExamples.DeepLevelChecksLevelZeroRecord | crates/update-holochain-versions/src/nix_parser.rs:69-79 | on a three-segment path, a match at level 2 is checked against the second value recorded for the first segment: it is found exactly when its parent is that value, and aborts otherwise |
| NixParserExamples.ExampleOutputHashes | crates/update-holochain-versions/src/main.rs:278-287 | in a stream where no attribute set comes between `holochain`'s set and the `cargoLock` pair, a block written from pairs is found by the `holochain.cargoLock` lookup and read back as the map those pairs collect to |
| NixParserExamples.ExampleLockAfterSource | crates/update-holochain-versions/src/main.rs:278-296 | in nvfetcher's layout, where `src = fetchgit { … }` precedes `cargoLock`, the lookup misses the pair and the output hashes are the empty table |
| GitRevs.Normalise | crates/update-holochain-versions/src/main.rs:63-65 | a normalised part holds no `"` and no upper-case letter |
| GitRevs.ParseGitRev | crates/update-holochain-versions/src/main.rs:59-72 | success needs a `:`; a parsed payload holds no `"` and no upper-case letter; every failure carries the input |
| GitRevs.ParseAtFirstColon | crates/update-holochain-versions/src/main.rs:61-70 | for a colon-free tag, the tag alone decides the variant, and the payload may itself contain `:` |
| GitRevs.ParseIgnoresCase | crates/update-holochain-versions/src/main.rs:63-70 | lower-casing the input first does not change what is parsed |
| GitRevs.NormaliseIgnoresCase | crates/update-holochain-versions/src/main.rs:63-65 | normalising a lower-cased part gives the same result as normalising the part |
| GitRevs.NormaliseKeeps | crates/update-holochain-versions/src/main.rs:63-65 | a lower-case, quote-free part with no surrounding whitespace is unchanged |
| GitRevs.NormaliseTrims | crates/update-holochain-versions/src/main.rs:63-65 | whitespace padding around a lower-case, quote-free part is trimmed away |
| GitRevs.NormalisePadded | crates/update-holochain-versions/src/main.rs:63-65 | whitespace padding around any part, whatever its case, quotes or inner spaces, and including the empty part, does not change what the part normalises to |
| GitRevs.PaddingIgnored | crates/update-holochain-versions/src/main.rs:61-70 | for every colon-free tag and every payload, whitespace around the tag and around the payload does not change the parsed value; the error, when there is one, still quotes the padded input |
| GitRevs.PaddedBranchParses | crates/update-holochain-versions/src/main.rs:61-68 | any whitespace padding of `branch:<p>`, such as ` branch : main `, parses as the branch `p` |
| GitRevs.NormaliseQuoted | crates/update-holochain-versions/src/main.rs:65 | a lower-case, quote-free payload between `"`s normalises to itself |
| GitRevs.EmptyPayloadAccepted | crates/update-holochain-versions/src/main.rs:67-68 | `branch:` parses as a branch with an empty payload |
| GitRevs.NoColonRejected | crates/update-holochain-versions/src/main.rs:67-70 | input without `:` is rejected with an error carrying the input |
| GitRevs.GitRevRoundTrip | crates/update-holochain-versions/src/main.rs:144 | parsing `<Variant>:"<p>"` returns the same variant with payload `p` for a lower-case, quote-free `p` |
| GitRevs.TagNames | crates/update-holochain-versions/src/main.rs:68-69 | the serde variant names `Branch` and `Commit` are colon-free and normalise to the accepted tags `branch` and `commit` |
| GitRevs.JsonEscapeChar | crates/update-holochain-versions/src/main.rs:144 | a character that needs no escape is written as itself; `"` becomes `\"`, `\` becomes `\\`, newline, carriage return, tab, backspace and form feed become `\n`, `\r`, `\t`, `\b`, `\f`, and any other control character becomes `\u00` and two lower-case hex digits; no control character is written |
| GitRevs.JsonString | crates/update-holochain-versions/src/main.rs:144 | the serialised payload is delimited by `"`, holds no control character, and is the plainly quoted text when nothing needs escaping |
| GitRevs.JsonEscape | crates/update-holochain-versions/src/main.rs:144 | serde_json's escaping leaves a string with nothing to escape unchanged and writes no control character |
| GitRevs.ReadEscaped | crates/update-holochain-versions/src/main.rs:144 | each escape that serde_json writes is read back by a JSON string decoder as the character it stands for, using exactly its own length |
| GitRevs.UnescapeEscape | crates/update-holochain-versions/src/main.rs:144 | decoding the escaped text gives the payload back, so serde_json's string encoding loses nothing |
| GitRevs.JsonStringRoundTrip | crates/update-holochain-versions/src/main.rs:144 | the serialised payload is the escaped payload in quotes, and its body decodes back to the payload |
| GitRevs.HelperArgument | crates/update-holochain-versions/src/main.rs:144 | the first `:` of the helper's argument follows the variant name, so the split gives the name as tag and the JSON string as payload |
| GitRevs.HelperArgumentParses | crates/update-holochain-versions/src/main.rs:144 | the helper's `<Variant>:<json string>` argument always parses, so the `unwrap` cannot abort; the variant is kept |
| GitRevs.GitRevLine | crates/update-holochain-versions/src/main.rs:146-151 | the helper writes `src.branch` for a branch and `src.manual` for a commit, with the normalised payload in quotes, and the payload itself when it is lower-case with nothing to escape |
| GitRevs.Target | crates/update-holochain-versions/src/main.rs:146-149 | the target is `src.branch` exactly for a branch and `src.manual` exactly for a commit, and holds no `=` |
| GitRevs.Assignment | crates/update-holochain-versions/src/main.rs:151 | for a target without `=`, the line's first `=` separates the target from the quoted value |
| GitRevs.BackslashDoubled | crates/update-holochain-versions/src/main.rs:144-151 | a branch named `a\b` is written as `src.branch = "a\\b"`: the re-parse keeps serde_json's escape, so the backslash reaches the Nix line doubled |
| GitRevs.PlainPayloadRendered | crates/update-holochain-versions/src/main.rs:144-151 | serialising and re-parsing a lower-case payload with nothing to escape gives it back |
| CargoLock.Entry | crates/update-holochain-versions/src/main.rs:283-284 | a piece yields a pair exactly when it holds an `=`, and the key holds no `=` |
| CargoLock.EntryChars | crates/update-holochain-versions/src/main.rs:283-284 | key and value use only the piece's characters |
| CargoLock.PieceEntryReads | crates/update-holochain-versions/src/main.rs:281-285 | trimming a piece before the split changes nothing about whether it reads as a pair: it does exactly when it holds an `=`, and the key holds none |
| CargoLock.EntriesFromPieces | crates/update-holochain-versions/src/main.rs:280-285 | every pair is the reading of some piece, there are no more pairs than pieces, and pieces without `=` give no pairs |
| CargoLock.EntryAtFirstEquals | crates/update-holochain-versions/src/main.rs:283-284 | a piece is split at its first `=` into trimmed key and value, so a value may contain `=` |
| CargoLock.Present | crates/update-holochain-versions/src/main.rs:282-285 | `filter_map` keeps at most one pair per piece, and every pair kept is the reading of some piece |
| CargoLock.EntriesKeys | crates/update-holochain-versions/src/main.rs:283-284 | no pair read from the pieces has an `=` in its key |
| CargoLock.EntriesOfPairs | crates/update-holochain-versions/src/main.rs:280-285 | pieces that each read as one pair yield exactly those pairs, in order |
| CargoLock.EntriesAvoid | crates/update-holochain-versions/src/main.rs:280-285 | a character no piece contains appears in no key and no value |
| CargoLock.EntriesAppend | crates/update-holochain-versions/src/main.rs:280-285 | pieces are read in order, each independently of the others |
| CargoLock.Collect | crates/update-holochain-versions/src/main.rs:286 | the map's keys are exactly the keys that occur, and each maps to a value it occurs with |
| CargoLock.CollectLastWins | crates/update-holochain-versions/src/main.rs:286 | a key takes the value of its last occurrence |
| CargoLock.CollectAppend | crates/update-holochain-versions/src/main.rs:286 | the map of a concatenation is the right-biased union of the parts' maps |
| CargoLock.LaterPieceWins | crates/update-holochain-versions/src/main.rs:280-286 | for pieces split into an earlier and a later run, the later run's bindings override the earlier run's |
| CargoLock.CargoLockTable | crates/update-holochain-versions/src/main.rs:279-286 | no key of the block's table holds an `=` or a `;`, and no value holds a `;` |
| CargoLock.OutputHashes | crates/update-holochain-versions/src/main.rs:278-287 | the output hashes are absent exactly when the lookup aborts, empty when nothing was found, and the table of the found block otherwise, with its separator guarantees |
| CargoLock.BindingEntry | crates/update-holochain-versions/src/main.rs:281-284 | a `key = value` binding with clean ends reads back as exactly its pair |
| CargoLock.RenderRoundTrip | crates/update-holochain-versions/src/main.rs:278-287 | parsing `{k1 = v1;…;}` written from well-formed pairs gives the map those pairs collect to |
| CargoLock.RepeatedKeyLaterWins | crates/update-holochain-versions/src/main.rs:283-286 | a key bound twice keeps its second value |
| CargoLock.QuotedBindingKept | crates/update-holochain-versions/src/main.rs:283-284 | `"a" = "b=c"` gives the key `"a"` and the value `"b=c"`, quotes and inner `=` included |

## Left out

- `VersionUpdater::from_reader`: stream reading, UTF-8 decoding and the rnix
  parser are I/O and a foreign library. The walk takes the parsed child nodes as
  an abstract `Node` sequence. Which sequence rnix produces for a given document
  is not modelled.
- All `println!` tracing: it has no effect on any result.
- The `broken`-feature variant of `get_string_at_path`, `set_string_at_path` and
  the gated test: none of them is compiled in the default build.
- `main()` orchestration:
  - argument parsing;
  - temporary directories;
  - writing `nvfetcher.toml`;
  - running `nvfetcher`;
  - reading `generated.nix`;
  - writing the output file.

  These are process and file I/O. Only the step from the
  `holochain.cargoLock` lookup to its table, with `unwrap_or_default`, is modelled.
- Handlebars registration and rendering: these are library calls. The
  serde_json extraction of the helper's parameter is reduced to its result: the
  serialised `GitRev` as `<Variant>:<json string>`, with the JSON string written
  by `JsonString`.
- NixParser.Outcome: `Malformed` stands for a panic, so it is a distinguished
  outcome here, not a recoverable `Err`. The `?` error paths of `from_reader` are
  outside the model.
- Text.Lower: only ASCII letters are case-mapped. Trimming uses only
  ASCII whitespace. Unicode case mapping and Unicode whitespace are not modelled.
- GitRevs.JsonEscape: characters above U+001F other than `"` and `\` are
  written as themselves, as serde_json does. Whether serde_json's own escape table has further entries is
  not modelled beyond `"`, `\`, the named control escapes and `\u00XX`.
- GitRevs.JsonUnescape: the decoder used as the inverse of `JsonEscape` reads
  only the escapes serde_json writes, plus `\/`. It reads `\u` only in the form
  `\u00XX` with lower-case hex digits, and it reads no surrogate pairs. It is a
  reference for the round trip, not a general JSON parser.

=== FILE: cargo_lock.dfy ===
/** The closure that turns the text of the `cargoLock` attribute set into a
    key -> value table: strip the braces, split on `;`, keep the pieces with an
    `=`, split each at its first `=`, and collect the pairs into a map. */
module CargoLock {
  import opened Wrappers
  import opened Text
  import opened NixParser

  /** What `trim_matches` strips from both ends of the block. */
  const BlockChars: set<char> := {'{', '}', ' ', '\n', '\r'}

  /** One trimmed piece: `split_once('=')`, then both halves trimmed; `None` when the piece has no `=`. */
  function Entry(piece: string): (r: Option<(string, string)>)
    ensures r.None? <==> '=' !in piece
    ensures r.Some? ==> '=' !in r.value.0
  {
    match SplitOnce(piece, '=')
    case None => None
    case Some((k, v)) => Some((Trim(k), Trim(v)))
  }

  /** Key and value use only characters of their piece. */
  lemma EntryChars(piece: string)
    ensures Entry(piece).Some? ==> forall x :: x in Entry(piece).value.0 ==> x in piece
    ensures Entry(piece).Some? ==> forall x :: x in Entry(piece).value.1 ==> x in piece
  {
  }

  /** A piece read as a pair: trimmed, then split at its first `=`. */
  function PieceEntry(piece: string): Option<(string, string)>
  {
    Entry(Trim(piece))
  }

  /** Trimming removes only whitespace, so a piece reads as a pair exactly when
      it holds an `=`, and the pair's key holds none. */
  lemma PieceEntryReads(piece: string)
    ensures PieceEntry(piece).None? <==> '=' !in piece
    ensures PieceEntry(piece).Some? ==> '=' !in PieceEntry(piece).value.0
  {
    if '=' in piece {
      var j :| 0 <= j < |piece| && piece[j] == '=';
      var lo := LeadingRun(piece, Whitespace);
      var t := Trim(piece);
      assert '=' !in Whitespace;
      assert lo <= j < lo + |t|;
      assert t[j - lo] == '=';
    }
  }

  /** Each piece read as a pair, in order; `None` for a piece without `=`. */
  function Readings(pieces: seq<string>): (r: seq<Option<(string, string)>>)
    ensures |r| == |pieces|
    ensures forall i :: 0 <= i < |pieces| ==> r[i] == PieceEntry(pieces[i])
  {
    seq(|pieces|, i requires 0 <= i < |pieces| => PieceEntry(pieces[i]))
  }

  /** The values that are present, in order: the dropping half of `filter_map`. */
  function Present(rs: seq<Option<(string, string)>>): (r: seq<(string, string)>)
    ensures |r| <= |rs|
    ensures forall x :: x in r ==> Some(x) in rs
    decreases |rs|
  {
    if |rs| == 0 then []
    else
      var rest := Present(rs[1..]);
      assert forall x :: Some(x) in rs[1..] ==> Some(x) in rs;
      match rs[0]
      case None => rest
      case Some(x) => [x] + rest
  }

  /** The `filter_map` over the pieces: their pairs, in order. */
  function Entries(pieces: seq<string>): seq<(string, string)>
  {
    Present(Readings(pieces))
  }

  /** Every pair is the reading of some piece, there are no more pairs than
      pieces, and pieces without `=` give no pairs at all. */
  lemma EntriesFromPieces(pieces: seq<string>)
    ensures |Entries(pieces)| <= |pieces|
    ensures forall e :: e in Entries(pieces) ==> exists j :: 0 <= j < |pieces| && PieceEntry(pieces[j]) == Some(e)
    ensures (forall j :: 0 <= j < |pieces| ==> '=' !in pieces[j]) ==> Entries(pieces) == []
  {
    var rs := Readings(pieces);
    forall e | e in Entries(pieces)
      ensures exists j :: 0 <= j < |pieces| && PieceEntry(pieces[j]) == Some(e)
    {
      var j :| 0 <= j < |rs| && rs[j] == Some(e);
    }
    if forall j :: 0 <= j < |pieces| ==> '=' !in pieces[j] {
      forall j | 0 <= j < |pieces|
        ensures rs[j] == None
      {
        PieceEntryReads(pieces[j]);
      }
      assert forall e :: e in Entries(pieces) ==> Some(e) in rs;
      assert |Entries(pieces)| > 0 ==> Entries(pieces)[0] in Entries(pieces);
    }
  }

  /** No key holds an `=`: each key ends before its piece's first `=`. */
  lemma EntriesKeys(pieces: seq<string>)
    ensures forall e :: e in Entries(pieces) ==> '=' !in e.0
  {
    var rs := Readings(pieces);
    forall e | e in Entries(pieces)
      ensures '=' !in e.0
    {
      var j :| 0 <= j < |rs| && rs[j] == Some(e);
      assert PieceEntry(pieces[j]) == Some(e);
    }
  }

  /** A character no piece holds is in no key and no value. */
  lemma EntriesAvoid(pieces: seq<string>, c: char)
    requires forall j :: 0 <= j < |pieces| ==> c !in pieces[j]
    ensures forall e :: e in Entries(pieces) ==> c !in e.0 && c !in e.1
  {
    var rs := Readings(pieces);
    forall e | e in Entries(pieces)
      ensures c !in e.0 && c !in e.1
    {
      var j :| 0 <= j < |rs| && rs[j] == Some(e);
      PieceEntryAvoids(pieces[j], c);
    }
  }

  /** A pair holds no character its piece lacks. */
  lemma PieceEntryAvoids(piece: string, c: char)
    requires c !in piece
    ensures PieceEntry(piece).Some? ==> c !in PieceEntry(piece).value.0 && c !in PieceEntry(piece).value.1
  {
    assert c !in Trim(piece);
    EntryChars(Trim(piece));
  }

  /** `collect::<HashMap<_, _>>()`: exactly the keys that occur, each with a value
      it occurs with. */
  function Collect(es: seq<(string, string)>): (r: map<string, string>)
    ensures forall k :: k in r <==> exists i :: 0 <= i < |es| && es[i].0 == k
    ensures forall k :: k in r ==> exists i :: 0 <= i < |es| && es[i] == (k, r[k])
    decreases |es|
  {
    if |es| == 0 then map[]
    else
      var last := es[|es| - 1];
      var earlier := Collect(es[..|es| - 1]);
      assert forall i :: 0 <= i < |es| - 1 ==> es[..|es| - 1][i] == es[i];
      earlier[last.0 := last.1]
  }

  /** A key takes the value of its last occurrence. */
  lemma {:induction false} CollectLastWins(es: seq<(string, string)>, i: int)
    requires 0 <= i < |es|
    requires forall j :: i < j < |es| ==> es[j].0 != es[i].0
    ensures es[i].0 in Collect(es) && Collect(es)[es[i].0] == es[i].1
    decreases |es|
  {
    if i < |es| - 1 {
      var init := es[..|es| - 1];
      assert init[i] == es[i];
      assert forall j :: i < j < |init| ==> init[j] == es[j];
      CollectLastWins(init, i);
    }
  }

  /** The table parsed from the text of a `cargoLock` block: no key holds an
      `=` or a `;`, and no value holds a `;`. */
  function CargoLockTable(text: string): (r: map<string, string>)
    ensures forall k :: k in r ==> '=' !in k && ';' !in k && ';' !in r[k]
  {
    TableKeysAndValues(text);
    Collect(Entries(Split(TrimMatches(text, BlockChars), ';')))
  }

  /** The `holochain.cargoLock` lookup turned into the output hashes: the table of
      the block that was found, the empty table when nothing was found (the
      `unwrap_or_default` that follows), and `None` where the lookup aborts. */
  function OutputHashes(lookup: Outcome): (r: Option<map<string, string>>)
    ensures r.None? <==> lookup.Malformed?
    ensures lookup.NotFound? ==> r == Some(map[])
    ensures lookup.Found? ==> r == Some(CargoLockTable(lookup.text))
    ensures r.Some? ==> forall k :: k in r.value ==> '=' !in k && ';' !in k && ';' !in r.value[k]
  {
    match lookup
    case Found(text) => Some(CargoLockTable(text))
    case NotFound => Some(map[])
    case Malformed => None
  }

  /** A piece splits at its first `=`: the key never holds one, the value may. */
  lemma EntryAtFirstEquals(k: string, v: string)
    requires '=' !in k
    ensures Entry(k + "=" + v) == Some((Trim(k), Trim(v)))
  {
    SplitOnceUnique(k + "=" + v, '=', k, v);
  }

  /** Pieces are read one after another. */
  lemma EntriesAppend(a: seq<string>, b: seq<string>)
    ensures Entries(a + b) == Entries(a) + Entries(b)
  {
    assert Readings(a + b) == Readings(a) + Readings(b) by {
      assert forall i :: 0 <= i < |a| ==> (a + b)[i] == a[i];
      assert forall i :: |a| <= i < |a + b| ==> (a + b)[i] == b[i - |a|];
    }
    PresentAppend(Readings(a), Readings(b));
  }

  lemma {:induction false} PresentAppend(a: seq<Option<(string, string)>>, b: seq<Option<(string, string)>>)
    ensures Present(a + b) == Present(a) + Present(b)
    decreases |a|
  {
    if |a| == 0 {
      assert a + b == b;
    } else {
      assert (a + b)[0] == a[0];
      assert (a + b)[1..] == a[1..] + b;
      PresentAppend(a[1..], b);
    }
  }

  /** Collecting later pairs overrides earlier ones: the map of a concatenation is
      the right-biased union of the maps. */
  lemma {:induction false} CollectAppend(a: seq<(string, string)>, b: seq<(string, string)>)
    ensures Collect(a + b) == Collect(a) + Collect(b)
    decreases |b|
  {
    if |b| == 0 {
      assert a + b == a;
    } else {
      var b' := b[..|b| - 1];
      var last := b[|b| - 1];
      assert b == b' + [last];
      assert a + b == (a + b') + [last];
      CollectAppend(a, b');
      CollectSnoc(a + b', last);
      CollectSnoc(b', last);
      UnionUpdate(Collect(a), Collect(b'), last.0, last.1);
    }
  }

  /** Collecting one more pair updates the map at its key. */
  lemma CollectSnoc(es: seq<(string, string)>, e: (string, string))
    ensures Collect(es + [e]) == Collect(es)[e.0 := e.1]
  {
    assert (es + [e])[..|es|] == es;
  }

  /** Updating a union updates its right operand. */
  lemma UnionUpdate<K, V>(m1: map<K, V>, m2: map<K, V>, k: K, v: V)
    ensures (m1 + m2)[k := v] == m1 + m2[k := v]
  {
  }

  /** When a key repeats, the later piece's value is the one in the table. */
  lemma LaterPieceWins(a: seq<string>, b: seq<string>)
    ensures Collect(Entries(a + b)) == Collect(Entries(a)) + Collect(Entries(b))
  {
    EntriesAppend(a, b);
    CollectAppend(Entries(a), Entries(b));
  }

  /** No key of the table holds an `=` or a `;`, and no value holds a `;`. */
  lemma TableKeysAndValues(text: string)
    ensures var r := Collect(Entries(Split(TrimMatches(text, BlockChars), ';')));
      forall k :: k in r ==> '=' !in k && ';' !in k && ';' !in r[k]
  {
    var pieces := Split(TrimMatches(text, BlockChars), ';');
    var es := Entries(pieces);
    var r := Collect(es);
    EntriesAvoid(pieces, ';');
    EntriesKeys(pieces);
    forall k | k in r
      ensures '=' !in k && ';' !in k && ';' !in r[k]
    {
      var i :| 0 <= i < |es| && es[i] == (k, r[k]);
    }
  }

  /** One `key = value` binding. */
  function Binding(e: (string, string)): string
  {
    e.0 + " = " + e.1
  }

  function Bindings(es: seq<(string, string)>): (r: seq<string>)
    ensures |r| == |es|
    ensures forall i :: 0 <= i < |es| ==> r[i] == Binding(es[i])
    decreases |es|
  {
    if |es| == 0 then [] else [Binding(es[0])] + Bindings(es[1..])
  }

  /** An attribute set with one binding per pair, in order: `{k1 = v1;k2 = v2;}`. */
  function Render(es: seq<(string, string)>): string
  {
    "{" + Join(Bindings(es), ';') + ";}"
  }

  /** A pair that can be written as a binding and read back: non-empty key and
      value without surrounding whitespace, no `=` in the key, no `;` in either,
      and a key that does not start with a brace. */
  predicate Bindable(e: (string, string))
  {
    && |e.0| > 0 && |e.1| > 0
    && e.0[0] !in BlockChars && e.0[0] !in Whitespace && e.0[|e.0| - 1] !in Whitespace
    && e.1[0] !in Whitespace && e.1[|e.1| - 1] !in Whitespace
    && '=' !in e.0 && ';' !in e.0 && ';' !in e.1
  }

  /** A binding reads back as its own pair. */
  lemma BindingEntry(e: (string, string))
    requires Bindable(e)
    ensures PieceEntry(Binding(e)) == Some(e)
  {
    var k := e.0;
    var v := e.1;
    BindingTrimmed(k, v);
    BindingShape(k, v);
    EntryAtFirstEquals(k + " ", " " + v);
    PaddedTrim(k, v);
  }

  /** A binding has no surrounding whitespace to trim. */
  lemma BindingTrimmed(k: string, v: string)
    requires |k| > 0 && |v| > 0 && k[0] !in Whitespace && v[|v| - 1] !in Whitespace
    ensures Trim(k + " = " + v) == k + " = " + v
  {
    var line := k + " = " + v;
    assert line[0] == k[0];
    assert line[|line| - 1] == v[|v| - 1];
    TrimMatchesUntouched(line, Whitespace);
  }

  /** The first `=` of a binding is the one after the key. */
  lemma BindingShape(k: string, v: string)
    requires '=' !in k
    ensures k + " = " + v == (k + " ") + "=" + (" " + v)
    ensures '=' !in k + " "
  {
  }

  /** The spaces around the `=` are trimmed away from the key and the value. */
  lemma PaddedTrim(k: string, v: string)
    requires |k| > 0 && k[0] !in Whitespace && k[|k| - 1] !in Whitespace
    requires |v| > 0 && v[0] !in Whitespace && v[|v| - 1] !in Whitespace
    ensures Trim(k + " ") == k
    ensures Trim(" " + v) == v
  {
    assert k + " " == "" + k + " ";
    TrimMatchesCore("", k, " ", Whitespace);
    assert " " + v == " " + v + "";
    TrimMatchesCore(" ", v, "", Whitespace);
  }

  lemma BindingsEntries(es: seq<(string, string)>)
    requires forall i :: 0 <= i < |es| ==> Bindable(es[i])
    ensures Entries(Bindings(es)) == es
  {
    var bs := Bindings(es);
    forall i | 0 <= i < |es|
      ensures PieceEntry(bs[i]) == Some(es[i])
    {
      BindingEntry(es[i]);
    }
    EntriesOfPairs(bs, es);
  }

  /** Pieces that each read as one pair read as those pairs, in order. */
  lemma EntriesOfPairs(pieces: seq<string>, es: seq<(string, string)>)
    requires |pieces| == |es|
    requires forall i :: 0 <= i < |es| ==> PieceEntry(pieces[i]) == Some(es[i])
    ensures Entries(pieces) == es
  {
    PresentAll(Readings(pieces), es);
  }

  /** When every value is present, all of them are kept. */
  lemma {:induction false} PresentAll(rs: seq<Option<(string, string)>>, xs: seq<(string, string)>)
    requires |rs| == |xs|
    requires forall i :: 0 <= i < |xs| ==> rs[i] == Some(xs[i])
    ensures Present(rs) == xs
    decreases |xs|
  {
    if |xs| > 0 {
      assert forall i :: 0 <= i < |xs| - 1 ==> rs[1..][i] == rs[i + 1] && xs[1..][i] == xs[i + 1];
      PresentAll(rs[1..], xs[1..]);
      assert xs == [xs[0]] + xs[1..];
    }
  }

  /** Rendering pairs as a block and parsing the block gives the map the pairs
      collect to: each binding comes back with its quotes and inner spaces, and a
      key written twice keeps its last value. */
  lemma RenderRoundTrip(es: seq<(string, string)>)
    requires forall i :: 0 <= i < |es| ==> Bindable(es[i])
    ensures CargoLockTable(Render(es)) == Collect(es)
  {
    var body := TrimMatches(Render(es), BlockChars);
    RenderTrimmed(es);
    RenderPieces(es);
    var pieces := Split(body, ';');
    assert pieces == RenderedPieces(es);
    RenderEntries(es);
    calc {
      CargoLockTable(Render(es));
      Collect(Entries(pieces));
      Collect(es);
    }
  }

  /** Stripping the block characters leaves the bindings and the final `;`. */
  lemma RenderTrimmed(es: seq<(string, string)>)
    requires forall i :: 0 <= i < |es| ==> Bindable(es[i])
    ensures TrimMatches(Render(es), BlockChars) == Join(Bindings(es), ';') + ";"
  {
    if |es| > 0 {
      BodyFirst(es);
    }
    BracedTrim(Join(Bindings(es), ';'));
  }

  /** Braces around a body ending in `;` are stripped. */
  lemma BracedTrim(joined: string)
    requires |joined| > 0 ==> joined[0] !in BlockChars
    ensures TrimMatches("{" + joined + ";}", BlockChars) == joined + ";"
  {
    var body := joined + ";";
    assert "{" + joined + ";}" == "{" + body + "}";
    assert body[|body| - 1] == ';';
    assert |joined| > 0 ==> body[0] == joined[0];
    assert '{' in BlockChars && '}' in BlockChars && ';' !in BlockChars;
    TrimMatchesCore("{", body, "}", BlockChars);
  }

  /** The joined bindings start with the first key. */
  lemma BodyFirst(es: seq<(string, string)>)
    requires |es| > 0 && |es[0].0| > 0
    ensures |Join(Bindings(es), ';')| > 0 && Join(Bindings(es), ';')[0] == es[0].0[0]
  {
    var bs := Bindings(es);
    JoinHead(bs, ';');
    assert bs[0] == es[0].0 + " = " + es[0].1;
    assert bs[0][0] == es[0].0[0];
    assert Join(bs, ';')[0] == Join(bs, ';')[..|bs[0]|][0];
  }

  /** The pieces between `;`s: one per binding, and the empty text after the last `;`. */
  function RenderedPieces(es: seq<(string, string)>): seq<string>
  {
    if |es| == 0 then ["", ""] else Bindings(es) + [""]
  }

  /** A separator other than the binding's own characters stays out of it. */
  lemma BindingAvoids(e: (string, string), c: char)
    requires c != ' ' && c != '=' && c !in e.0 && c !in e.1
    ensures c !in Binding(e)
  {
  }

  lemma RenderPieces(es: seq<(string, string)>)
    requires forall i :: 0 <= i < |es| ==> Bindable(es[i])
    ensures Split(Join(Bindings(es), ';') + ";", ';') == RenderedPieces(es)
  {
    var bs := Bindings(es);
    if |es| == 0 {
      assert Join(bs, ';') + ";" == "" + [';'] + "";
      SplitTwo("", "", ';');
    } else {
      forall i | 0 <= i < |bs|
        ensures ';' !in bs[i]
      {
        BindingAvoids(es[i], ';');
      }
      SplitTrailing(bs, ';');
    }
  }

  lemma RenderEntries(es: seq<(string, string)>)
    requires forall i :: 0 <= i < |es| ==> Bindable(es[i])
    ensures Entries(RenderedPieces(es)) == es
  {
    EmptyPieces();
    if |es| > 0 {
      var bs := Bindings(es);
      EntriesAppend(bs, [""]);
      BindingsEntries(es);
    }
  }

  /** Empty pieces hold no pair. */
  lemma EmptyPieces()
    ensures Entries([""]) == [] && Entries(["", ""]) == []
  {
    assert PieceEntry("") == None;
    assert Readings([""]) == [None];
    assert Readings(["", ""]) == [None, None];
    var none: Option<(string, string)> := None;
    assert [none, none][1..] == [none];
  }

  /** A key bound twice in one block keeps its second value. */
  lemma RepeatedKeyLaterWins(k: string, v1: string, v2: string)
    requires Bindable((k, v1)) && Bindable((k, v2))
    ensures CargoLockTable(Render([(k, v1), (k, v2)])) == map[k := v2]
  {
    var es := [(k, v1), (k, v2)];
    forall i | 0 <= i < |es|
      ensures Bindable(es[i])
    {
    }
    RenderRoundTrip(es);
    TwoPairs(k, v1, v2);
  }

  lemma TwoPairs(k: string, v1: string, v2: string)
    ensures Collect([(k, v1), (k, v2)]) == map[k := v2]
  {
    CollectSnoc([], (k, v1));
    CollectSnoc([(k, v1)], (k, v2));
    assert [] + [(k, v1)] == [(k, v1)];
    assert [(k, v1)] + [(k, v2)] == [(k, v1), (k, v2)];
  }

  /** A quoted key and a quoted value holding `=` come back with their quotes. */
  lemma QuotedBindingKept()
    ensures PieceEntry("\"a\" = \"b=c\"") == Some(("\"a\"", "\"b=c\""))
  {
    var e := ("\"a\"", "\"b=c\"");
    assert Binding(e) == "\"a\" = \"b=c\"";
    assert Bindable(e);
    BindingEntry(e);
  }
}

=== FILE: git_rev.dfy ===
/** The `--git-rev` argument: `GitRev`, its `FromStr` parser, and the line the
    `git-rev-helper` template helper writes for it. */
module GitRevs {
  import opened Wrappers
  import opened Text

  /** Which revision of the repository to fetch. */
  datatype GitRev = Branch(payload: string) | Commit(payload: string)

  /** `bail!("invalid git-rev provided: {}", s)`, carrying the rejected input. */
  datatype GitRevError = InvalidGitRev(input: string)

  /** Each side of the first `:` is lower-cased, then trimmed, then stripped of every `"`. */
  function Normalise(part: string): (r: string)
    ensures '"' !in r
    ensures NoUpper(r)
  {
    var lowered := Lower(part);
    LowerNormalises(part);
    var trimmed := Trim(lowered);
    NoUpperWithin(lowered, trimmed);
    var r := RemoveAll(trimmed, '"');
    NoUpperWithin(trimmed, r);
    r
  }

  /** `GitRev::from_str`. */
  function ParseGitRev(s: string): (r: Result<GitRev, GitRevError>)
    ensures r.Success? ==> ':' in s
    ensures r.Success? ==> '"' !in r.value.payload && NoUpper(r.value.payload)
    ensures r.Failure? ==> r.error == InvalidGitRev(s)
  {
    match SplitOnce(s, ':')
    case None => Failure(InvalidGitRev(s))
    case Some((tag, payload)) =>
      var key := Normalise(tag);
      if key == "branch" then Success(Branch(Normalise(payload)))
      else if key == "commit" then Success(Commit(Normalise(payload)))
      else Failure(InvalidGitRev(s))
  }

  /** The input splits at its first `:` only, so the payload may hold more `:`;
      the normalised tag alone picks the variant, and any tag other than
      `branch` or `commit` is rejected. */
  lemma ParseAtFirstColon(tag: string, payload: string)
    requires ':' !in tag
    ensures Normalise(tag) == "branch" ==> ParseGitRev(tag + ":" + payload) == Success(Branch(Normalise(payload)))
    ensures Normalise(tag) == "commit" ==> ParseGitRev(tag + ":" + payload) == Success(Commit(Normalise(payload)))
    ensures Normalise(tag) != "branch" && Normalise(tag) != "commit" ==>
      ParseGitRev(tag + ":" + payload) == Failure(InvalidGitRev(tag + ":" + payload))
  {
    SplitOnceUnique(tag + ":" + payload, ':', tag, payload);
  }

  /** The tag is case-insensitive: lower-casing the whole input first changes nothing. */
  lemma ParseIgnoresCase(s: string)
    ensures ParseGitRev(Lower(s)).ToOption() == ParseGitRev(s).ToOption()
  {
    match SplitOnce(s, ':')
    case None =>
      LowerKeepsColonFree(s);
    case Some((tag, payload)) =>
      ParseIgnoresCaseAt(tag, payload);
  }

  lemma ParseIgnoresCaseAt(tag: string, payload: string)
    requires ':' !in tag
    ensures ParseGitRev(Lower(tag + ":" + payload)).ToOption() == ParseGitRev(tag + ":" + payload).ToOption()
  {
    LowerAroundColon(tag, payload);
    LowerKeepsColonFree(tag);
    ParseAtFirstColon(tag, payload);
    ParseAtFirstColon(Lower(tag), Lower(payload));
    NormaliseIgnoresCase(tag);
    NormaliseIgnoresCase(payload);
  }

  /** Lower-casing never produces a `:`. */
  lemma LowerKeepsColonFree(s: string)
    requires ':' !in s
    ensures ':' !in Lower(s)
  {
    forall i | 0 <= i < |s|
      ensures Lower(s)[i] != ':'
    {
      assert s[i] != ':';
    }
  }

  lemma LowerAroundColon(tag: string, payload: string)
    ensures Lower(tag + ":" + payload) == Lower(tag) + ":" + Lower(payload)
  {
    LowerAppend(tag + ":", payload);
    LowerAppend(tag, ":");
    assert Lower(":") == ":";
  }

  /** Normalising lower-cases, so lower-casing beforehand makes no difference. */
  lemma NormaliseIgnoresCase(part: string)
    ensures Normalise(Lower(part)) == Normalise(part)
  {
    LowerNormalises(part);
  }

  /** Text that is already lower-case, quote-free and trimmed survives normalising unchanged. */
  lemma NormaliseKeeps(part: string)
    requires NoUpper(part) && '"' !in part
    requires |part| > 0 ==> part[0] !in Whitespace && part[|part| - 1] !in Whitespace
    ensures Normalise(part) == part
  {
    LowerNormalises(part);
    TrimMatchesUntouched(part, Whitespace);
  }

  /** Whitespace around a part is trimmed away: a lower-case, quote-free part
      whose own ends are not whitespace comes back from any padding. */
  lemma NormaliseTrims(w1: string, p: string, w2: string)
    requires forall i :: 0 <= i < |w1| ==> w1[i] in Whitespace
    requires forall i :: 0 <= i < |w2| ==> w2[i] in Whitespace
    requires NoUpper(p) && '"' !in p
    requires |p| > 0 && p[0] !in Whitespace && p[|p| - 1] !in Whitespace
    ensures Normalise(w1 + p + w2) == p
  {
    var s := w1 + p + w2;
    assert NoUpper(s) by {
      forall i | 0 <= i < |s|
        ensures !('A' <= s[i] <= 'Z')
      {
        if i < |w1| {
          assert s[i] == w1[i];
        } else if i < |w1| + |p| {
          assert s[i] == p[i - |w1|];
        } else {
          assert s[i] == w2[i - |w1| - |p|];
        }
      }
    }
    assert Lower(s) == s;
    TrimMatchesCore(w1, p, w2, Whitespace);
  }

  /** Whitespace padding never changes what a part normalises to, whatever the
      part holds (case, quotes, inner spaces, nothing at all). */
  lemma NormalisePadded(w1: string, x: string, w2: string)
    requires forall i :: 0 <= i < |w1| ==> w1[i] in Whitespace
    requires forall i :: 0 <= i < |w2| ==> w2[i] in Whitespace
    ensures Normalise(w1 + x + w2) == Normalise(x)
  {
    WhitespaceLower(w1);
    WhitespaceLower(w2);
    LowerAppend(w1 + x, w2);
    LowerAppend(w1, x);
    TrimPadded(w1, Lower(x), w2);
  }

  /** Whitespace has no upper case, so lower-casing leaves it alone. */
  lemma WhitespaceLower(w: string)
    requires forall i :: 0 <= i < |w| ==> w[i] in Whitespace
    ensures Lower(w) == w
  {
    assert NoUpper(w) by {
      forall i | 0 <= i < |w|
        ensures !('A' <= w[i] <= 'Z')
      {
        assert w[i] in Whitespace;
      }
    }
  }

  /** `from_str` ignores whitespace around the tag and around the payload: the
      padded input parses to what the bare one does, for every tag and payload
      (an error still quotes the input it was given). */
  lemma PaddingIgnored(w1: string, t: string, w2: string, w3: string, p: string, w4: string)
    requires forall i :: 0 <= i < |w1| ==> w1[i] in Whitespace
    requires forall i :: 0 <= i < |w2| ==> w2[i] in Whitespace
    requires forall i :: 0 <= i < |w3| ==> w3[i] in Whitespace
    requires forall i :: 0 <= i < |w4| ==> w4[i] in Whitespace
    requires ':' !in t
    ensures ParseGitRev((w1 + t + w2) + ":" + (w3 + p + w4)).ToOption() == ParseGitRev(t + ":" + p).ToOption()
  {
    NormalisePadded(w1, t, w2);
    NormalisePadded(w3, p, w4);
    ColonFreePadding(w1, t, w2);
    SameSidesSameParse(w1 + t + w2, w3 + p + w4, t, p);
  }

  /** Only the normalised sides of the first `:` decide what is parsed. */
  lemma SameSidesSameParse(tag: string, payload: string, tag': string, payload': string)
    requires ':' !in tag && ':' !in tag'
    requires Normalise(tag) == Normalise(tag') && Normalise(payload) == Normalise(payload')
    ensures ParseGitRev(tag + ":" + payload).ToOption() == ParseGitRev(tag' + ":" + payload').ToOption()
  {
    ParseAtFirstColon(tag, payload);
    ParseAtFirstColon(tag', payload');
  }

  /** Whitespace padding adds no `:`. */
  lemma ColonFreePadding(w1: string, t: string, w2: string)
    requires forall i :: 0 <= i < |w1| ==> w1[i] in Whitespace
    requires forall i :: 0 <= i < |w2| ==> w2[i] in Whitespace
    requires ':' !in t
    ensures ':' !in w1 + t + w2
  {
    var s := w1 + t + w2;
    assert ':' !in Whitespace;
    forall i | 0 <= i < |s|
      ensures s[i] != ':'
    {
      if i < |w1| {
        assert s[i] == w1[i];
      } else if i < |w1| + |t| {
        assert s[i] == t[i - |w1|];
      } else {
        assert s[i] == w2[i - |w1| - |t|];
      }
    }
  }

  /** ` branch : main `, and any other padding of `branch:<p>`, names the branch `p`. */
  lemma PaddedBranchParses(w1: string, w2: string, w3: string, p: string, w4: string)
    requires forall i :: 0 <= i < |w1| ==> w1[i] in Whitespace
    requires forall i :: 0 <= i < |w2| ==> w2[i] in Whitespace
    requires forall i :: 0 <= i < |w3| ==> w3[i] in Whitespace
    requires forall i :: 0 <= i < |w4| ==> w4[i] in Whitespace
    requires NoUpper(p) && '"' !in p && |p| > 0 && p[0] !in Whitespace && p[|p| - 1] !in Whitespace
    ensures ParseGitRev((w1 + "branch" + w2) + ":" + (w3 + p + w4)) == Success(Branch(p))
  {
    BranchWord();
    PaddingIgnored(w1, "branch", w2, w3, p, w4);
    BranchKept();
    NormaliseKeeps(p);
    ParseAtFirstColon("branch", p);
  }

  /** A lower-case, quote-free payload written between double quotes normalises
      back to itself: the trim sees the quotes, not the payload's own spaces. */
  lemma NormaliseQuoted(p: string)
    requires NoUpper(p) && '"' !in p
    ensures Normalise(Quote(p)) == p
  {
    QuotedLowerTrimmed(p);
    Unquoted(p);
  }

  lemma QuotedLowerTrimmed(p: string)
    requires NoUpper(p)
    ensures Trim(Lower(Quote(p))) == Quote(p)
  {
    var q := Quote(p);
    assert NoUpper(q) by {
      forall i | 0 <= i < |q|
        ensures !('A' <= q[i] <= 'Z')
      {
        if 0 < i < |q| - 1 {
          assert q[i] == p[i - 1];
        }
      }
    }
    assert Lower(q) == q;
    assert q[0] == '"' && q[|q| - 1] == '"';
  }

  lemma Unquoted(p: string)
    requires '"' !in p
    ensures RemoveAll(Quote(p), '"') == p
  {
    RemoveAllAppend("\"" + p, "\"", '"');
    RemoveAllAppend("\"", p, '"');
  }

  /** `branch:` is accepted, with an empty branch name. */
  lemma EmptyPayloadAccepted()
    ensures ParseGitRev("branch:") == Success(Branch(""))
  {
    BranchKept();
    BranchColonText();
    EmptyBranch("branch");
  }

  /** Any tag that reads as `branch`, followed by a bare `:`, names the empty branch. */
  lemma EmptyBranch(tag: string)
    requires ':' !in tag && Normalise(tag) == "branch"
    ensures ParseGitRev(tag + ":") == Success(Branch(""))
  {
    EmptyKept();
    assert tag + ":" == tag + [':'] + "";
    SplitOnceUnique(tag + ":", ':', tag, "");
  }

  /** Input without a `:` is always rejected. */
  lemma NoColonRejected(s: string)
    requires ':' !in s
    ensures ParseGitRev(s) == Failure(InvalidGitRev(s))
  {
  }

  /** The name serde gives the variant, which the helper writes as the tag. */
  function VariantName(g: GitRev): string
  {
    match g
    case Branch(_) => "Branch"
    case Commit(_) => "Commit"
  }

  /** Parsing `<Variant>:"<p>"` gives back the same variant with payload `p`
      whenever `p` is lower-case and has no `"`. */
  lemma GitRevRoundTrip(g: GitRev)
    requires NoUpper(g.payload) && '"' !in g.payload
    ensures ParseGitRev(VariantName(g) + ":" + Quote(g.payload)) == Success(g)
  {
    NormaliseQuoted(g.payload);
    TagNames(g);
    ParseAtFirstColon(VariantName(g), Quote(g.payload));
  }

  /** Each variant name holds no `:` and normalises to the tag the parser
      accepts for that variant. */
  lemma TagNames(g: GitRev)
    ensures ':' !in VariantName(g)
    ensures Normalise(VariantName(g)) == if g.Branch? then "branch" else "commit"
  {
    match g
    case Branch(_) => BranchTag();
    case Commit(_) => CommitTag();
  }

  /** A colon-free name whose lower-case form is a plain lower-case word
      normalises to that word. */
  lemma NameNormalises(name: string, word: string)
    requires Lower(name) == word && NoUpper(word) && '"' !in word && ':' !in name
    requires |word| > 0 && word[0] !in Whitespace && word[|word| - 1] !in Whitespace
    ensures Normalise(name) == word
  {
    NormaliseIgnoresCase(name);
    NormaliseKeeps(word);
  }

  // Facts about the literals `Branch`, `Commit`, `branch` and the empty text. Each
  // sits in a lemma of its own so that its proof sees one literal at a time.

  lemma BranchTag()
    ensures ':' !in "Branch" && Normalise("Branch") == "branch"
  {
    LowerBranch();
    NameNormalises("Branch", "branch");
  }

  lemma CommitTag()
    ensures ':' !in "Commit" && Normalise("Commit") == "commit"
  {
    LowerCommit();
    NameNormalises("Commit", "commit");
  }

  lemma LowerBranch()
    ensures Lower("Branch") == "branch"
  {
  }

  lemma LowerCommit()
    ensures Lower("Commit") == "commit"
  {
  }

  lemma BranchWord()
    ensures NoUpper("branch") && '"' !in "branch" && ':' !in "branch"
    ensures |"branch"| > 0 && "branch"[0] !in Whitespace && "branch"[|"branch"| - 1] !in Whitespace
  {
  }

  lemma BranchKept()
    ensures Normalise("branch") == "branch"
  {
    NormaliseKeeps("branch");
  }

  lemma BranchColonText()
    ensures "branch:" == "branch" + ":" && ':' !in "branch"
  {
  }

  lemma EmptyKept()
    ensures Normalise("") == ""
  {
    NormaliseKeeps("");
  }

  /** serde_json's escape of one character inside a JSON string: a character
      that needs no escape stands for itself, every other one becomes a
      sequence starting with `\`, and no control character is ever written. */
  function JsonEscapeChar(c: char): (r: string)
    ensures !NeedsEscape(c) ==> r == [c]
    ensures NeedsEscape(c) ==> |r| >= 2 && r[0] == '\\'
    ensures forall i :: 0 <= i < |r| ==> r[i] >= ' '
    // the sequence serde_json writes for each escaped character
    ensures c == '"' ==> r == "\\\""
    ensures c == '\\' ==> r == "\\\\"
    ensures c == '\n' ==> r == "\\n"
    ensures c == '\r' ==> r == "\\r"
    ensures c == '\t' ==> r == "\\t"
    ensures c == '\U{8}' ==> r == "\\b"
    ensures c == '\U{C}' ==> r == "\\f"
    ensures c < ' ' && c !in {'\n', '\r', '\t', '\U{8}', '\U{C}'} ==>
      r == "\\u00" + [HexDigit(c as int / 16), HexDigit(c as int % 16)]
  {
    if c == '"' then "\\\""
    else if c == '\\' then "\\\\"
    else if c == '\n' then "\\n"
    else if c == '\r' then "\\r"
    else if c == '\t' then "\\t"
    else if c == '\U{8}' then "\\b"
    else if c == '\U{C}' then "\\f"
    else if c < ' ' then "\\u00" + [HexDigit(c as int / 16), HexDigit(c as int % 16)]
    else [c]
  }

  function HexDigit(d: int): char
    requires 0 <= d < 16
  {
    "0123456789abcdef"[d]
  }

  /** A character serde_json writes as an escape sequence. */
  predicate NeedsEscape(c: char)
  {
    c == '"' || c == '\\' || c < ' '
  }

  /** `p` between double quotes. */
  function Quote(p: string): string
  {
    "\"" + p + "\""
  }

  /** serde_json's `Display` of a string value: the text quoted, with escapes.
      It is delimited by `"`, holds no control character, and is the plain
      quoted text when nothing needs escaping. */
  function JsonString(p: string): (r: string)
    ensures |r| >= 2 && r[0] == '"' && r[|r| - 1] == '"'
    ensures forall i :: 0 <= i < |r| ==> r[i] >= ' '
    ensures (forall i :: 0 <= i < |p| ==> !NeedsEscape(p[i])) ==> r == Quote(p)
  {
    var e := JsonEscape(p);
    var r := Quote(e);
    assert forall i :: 1 <= i < |r| - 1 ==> r[i] == e[i - 1];
    r
  }

  function JsonEscape(p: string): (r: string)
    ensures (forall i :: 0 <= i < |p| ==> !NeedsEscape(p[i])) ==> r == p
    ensures forall i :: 0 <= i < |r| ==> r[i] >= ' '
    decreases |p|
  {
    if |p| == 0 then ""
    else
      var head := JsonEscapeChar(p[0]);
      var rest := JsonEscape(p[1..]);
      assert forall i :: |head| <= i < |head + rest| ==> (head + rest)[i] == rest[i - |head|];
      head + rest
  }

  /** The value of a lower-case hexadecimal digit, the inverse of `HexDigit`. */
  function HexValue(h: char): (r: Option<int>)
    ensures r.Some? ==> 0 <= r.value < 16 && HexDigit(r.value) == h
    ensures forall d :: 0 <= d < 16 && HexDigit(d) == h ==> r == Some(d)
  {
    if '0' <= h <= '9' then Some(h as int - '0' as int)
    else if 'a' <= h <= 'f' then Some(h as int - 'a' as int + 10)
    else None
  }

  /** Reads one character of a JSON string body: a plain character, or one of
      the escapes `\"`, `\\`, `\/`, `\b`, `\f`, `\n`, `\r`, `\t`, `\u00XX`. Gives the
      character and how many characters it took; `None` for a bare `"`, a raw
      control character, or a malformed escape. */
  function ReadJsonChar(s: string): (r: Option<(char, nat)>)
    requires |s| > 0
    ensures r.Some? ==> 1 <= r.value.1 <= |s|
    ensures r.Some? && s[0] != '\\' ==> r.value == (s[0], 1)
    ensures s[0] == '"' || s[0] < ' ' ==> r.None?
  {
    if s[0] == '\\' then
      if |s| < 2 then None
      else if s[1] == '"' then Some(('"', 2))
      else if s[1] == '\\' then Some(('\\', 2))
      else if s[1] == '/' then Some(('/', 2))
      else if s[1] == 'b' then Some(('\U{8}', 2))
      else if s[1] == 'f' then Some(('\U{C}', 2))
      else if s[1] == 'n' then Some(('\n', 2))
      else if s[1] == 'r' then Some(('\r', 2))
      else if s[1] == 't' then Some(('\t', 2))
      else if s[1] == 'u' && |s| >= 6 && s[2] == '0' && s[3] == '0' then
        match (HexValue(s[4]), HexValue(s[5]))
        case (Some(hi), Some(lo)) => Some(((hi * 16 + lo) as char, 6))
        case _ => None
      else None
    else if s[0] == '"' || s[0] < ' ' then None
    else Some((s[0], 1))
  }

  /** Decodes the body of a JSON string, character by character. */
  function JsonUnescape(s: string): (r: Option<string>)
    ensures (forall i :: 0 <= i < |s| ==> !NeedsEscape(s[i])) ==> r == Some(s)
    decreases |s|
  {
    if |s| == 0 then Some("")
    else match ReadJsonChar(s)
      case None => None
      case Some((c, n)) =>
        assert (forall i :: 0 <= i < |s| ==> !NeedsEscape(s[i])) ==>
          n == 1 && c == s[0] && s == [c] + s[n..] && forall i :: 0 <= i < |s[n..]| ==> !NeedsEscape(s[n..][i]);
        match JsonUnescape(s[n..])
        case None => None
        case Some(rest) => Some([c] + rest)
  }

  /** A leading escape read as `c` puts `c` in front of whatever the rest decodes to. */
  lemma UnescapeCons(e: string, rest: string, c: char, q: string)
    requires |e| > 0 && ReadJsonChar(e + rest) == Some((c, |e|))
    requires JsonUnescape(rest) == Some(q)
    ensures JsonUnescape(e + rest) == Some([c] + q)
  {
    assert (e + rest)[|e|..] == rest;
  }

  /** Each escape serde_json writes reads back as the character it stands for,
      taking exactly its own length. */
  lemma ReadEscaped(c: char, rest: string)
    ensures ReadJsonChar(JsonEscapeChar(c) + rest) == Some((c, |JsonEscapeChar(c)|))
  {
    var e := JsonEscapeChar(c);
    var s := e + rest;
    assert forall i :: 0 <= i < |e| ==> s[i] == e[i];
    if c < ' ' && c !in {'\n', '\r', '\t', '\U{8}', '\U{C}'} {
      var hi := c as int / 16;
      var lo := c as int % 16;
      assert HexValue(s[4]) == Some(hi);
      assert HexValue(s[5]) == Some(lo);
      assert (hi * 16 + lo) as char == c;
    }
  }

  /** `JsonEscape` is undone by decoding: serde_json's string encoding loses nothing. */
  lemma {:induction false} UnescapeEscape(p: string)
    ensures JsonUnescape(JsonEscape(p)) == Some(p)
    decreases |p|
  {
    if |p| > 0 {
      var head := JsonEscapeChar(p[0]);
      var rest := JsonEscape(p[1..]);
      assert JsonEscape(p) == head + rest;
      ReadEscaped(p[0], rest);
      UnescapeEscape(p[1..]);
      UnescapeCons(head, rest, p[0], p[1..]);
      assert [p[0]] + p[1..] == p;
    }
  }

  /** The helper's JSON string is `p` quoted and escaped: its body decodes back to `p`. */
  lemma JsonStringRoundTrip(p: string)
    ensures JsonString(p) == Quote(JsonEscape(p))
    ensures JsonUnescape(JsonString(p)[1..|JsonString(p)| - 1]) == Some(p)
  {
    var e := JsonEscape(p);
    assert Quote(e)[1..|Quote(e)| - 1] == e;
    UnescapeEscape(p);
  }

  /** The left-hand side the helper writes for each variant: `src.branch` for
      a branch and `src.manual` for a commit, neither holding an `=`. */
  function Target(g: GitRev): (r: string)
    ensures r == "src.branch" <==> g.Branch?
    ensures r == "src.manual" <==> g.Commit?
    ensures '=' !in r
  {
    match g
    case Branch(_) => "src.branch"
    case Commit(_) => "src.manual"
  }

  /** The helper's argument: the serialised `GitRev` written as `<Variant>:<json string>`.
      Its first `:` is the one after the variant name, so the parser reads the
      name as the tag and the JSON string as the payload. */
  function HelperArgument(g: GitRev): (r: string)
    ensures SplitOnce(r, ':') == Some((VariantName(g), JsonString(g.payload)))
  {
    TagNames(g);
    SplitOnceUnique(VariantName(g) + ":" + JsonString(g.payload), ':', VariantName(g), JsonString(g.payload));
    VariantName(g) + ":" + JsonString(g.payload)
  }

  /** The helper's argument always parses (the `unwrap` never fails) and keeps its variant. */
  lemma HelperArgumentParses(g: GitRev)
    ensures ParseGitRev(HelperArgument(g)).Success?
    ensures ParseGitRev(HelperArgument(g)).value.Branch? == g.Branch?
    ensures ParseGitRev(HelperArgument(g)).value.payload == Normalise(JsonString(g.payload))
  {
    TagNames(g);
    ParseAtFirstColon(VariantName(g), JsonString(g.payload));
  }

  /** The Nix line `<target> = "<value>"`. For an `=`-free target its first `=`
      separates the target from the quoted value. */
  function Assignment(target: string, value: string): (r: string)
    ensures '=' !in target ==> SplitOnce(r, '=') == Some((target + " ", " " + Quote(value)))
  {
    AssignmentSplits(target, value);
    target + " = " + Quote(value)
  }

  lemma AssignmentSplits(target: string, value: string)
    ensures '=' !in target ==>
      SplitOnce(target + " = " + Quote(value), '=') == Some((target + " ", " " + Quote(value)))
  {
    var r := target + " = " + Quote(value);
    assert r == (target + " ") + ['='] + (" " + Quote(value));
    if '=' !in target {
      assert '=' !in target + " ";
      SplitOnceUnique(r, '=', target + " ", " " + Quote(value));
    }
  }

  /** `git_rev_helper`: re-parse the serialised `GitRev` and write the assignment
      for its variant. */
  function GitRevLine(g: GitRev): (out: string)
    ensures out == Assignment(Target(g), Normalise(JsonString(g.payload)))
    ensures NoUpper(g.payload) && (forall i :: 0 <= i < |g.payload| ==> !NeedsEscape(g.payload[i])) ==>
      out == Assignment(Target(g), g.payload)
  {
    HelperArgumentParses(g);
    PlainPayloadRendered(g.payload);
    match ParseGitRev(HelperArgument(g))
    case Success(Branch(b)) => Assignment("src.branch", b)
    case Success(Commit(c)) => Assignment("src.manual", c)
    case Failure(_) => assert false; ""
  }

  /** A backslash in a branch name reaches the Nix line doubled: `Branch("a\b")`
      is written as `src.branch = "a\\b"`, since serde_json escapes it and the
      re-parse only lower-cases, trims and drops `"`. */
  lemma BackslashDoubled()
    ensures GitRevLine(Branch("a\\b")) == Assignment("src.branch", "a\\\\b")
  {
    EscapedBackslash();
    NormaliseQuoted("a\\\\b");
  }

  lemma EscapedBackslash()
    ensures JsonString("a\\b") == Quote("a\\\\b")
    ensures NoUpper("a\\\\b") && '"' !in "a\\\\b"
  {
    assert "a\\b"[1..] == "\\b" && "\\b"[1..] == "b" && "b"[1..] == "";
    assert JsonEscape("b") == "b";
    assert JsonEscape("\\b") == "\\\\" + "b";
    assert JsonEscape("a\\b") == "a" + "\\\\b";
  }

  /** A payload with nothing to escape and no upper case comes out of the
      quoting and re-parsing unchanged. */
  lemma PlainPayloadRendered(p: string)
    ensures NoUpper(p) && (forall i :: 0 <= i < |p| ==> !NeedsEscape(p[i])) ==> Normalise(JsonString(p)) == p
  {
    if NoUpper(p) && (forall i :: 0 <= i < |p| ==> !NeedsEscape(p[i])) {
      assert '"' !in p by {
        forall i | 0 <= i < |p|
          ensures p[i] != '"'
        {
          assert !NeedsEscape(p[i]);
        }
      }
      NormaliseQuoted(p);
    }
  }
}

=== FILE: nix_parser.dfy ===
/** The path query of `VersionUpdater::get_string_at_path`: one flat pass over
    the child nodes of a parsed Nix document that tracks an attribute-set level
    counter and the values matched at level 0, and returns the source text of
    the first value at a level d > 0 whose key matches the path segment of its
    level and whose parent is the d-th value recorded. Values are recorded at
    level 0 only, so that is the value one level up only for d = 1. */
module NixParser {
  import opened Wrappers
  import opened Text

  /** One child node of the document, as far as the walk can tell them apart.
      `key` is `None` for a pair without a key node; otherwise it holds the key's
      path components, each `Some(identifier)` for an identifier and `None` for
      any other component (a quoted string or an interpolation). `value` and
      `parentText` are the source text of the pair's value and of its parent node. */
  datatype Node =
    | AttrSet
    | KeyValue(key: Option<seq<Option<string>>>, value: Option<string>, parentText: Option<string>)
    | Other

  /** What a query produces: `Found` is `Ok(Some(_))`, `NotFound` is `Ok(None)`,
      and `Malformed` stands for the `unwrap`, `assert_eq!` and `panic!` sites. */
  datatype Outcome = Found(text: string) | NotFound | Malformed

  /** The walk's mutable locals: `level`, `next_level` and the texts of
      `matched_nodes_per_level`. */
  datatype WalkState = WalkState(level: nat, nextLevel: nat, matched: seq<string>)

  /** After one node the walk either goes on to the next node or returns. */
  datatype Step = Continue(state: WalkState) | Stop(outcome: Outcome)

  const Initial := WalkState(0, 0, [])

  /** The characters `trim_matches` strips from a returned value. */
  const QuoteChars: set<char> := {'\\', '"'}

  /** A key's text: its identifier components concatenated with no separator.
      It holds nothing but identifier characters, so a key without identifiers
      has the empty text. */
  function KeyText(parts: seq<Option<string>>): (r: string)
    ensures forall x :: x in r ==> exists j :: 0 <= j < |parts| && parts[j].Some? && x in parts[j].value
    ensures (forall j :: 0 <= j < |parts| ==> parts[j].None?) ==> r == ""
    decreases |parts|
  {
    if |parts| == 0 then ""
    else
      var rest := KeyText(parts[1..]);
      assert forall j :: 1 <= j < |parts| ==> parts[1..][j - 1] == parts[j];
      ComponentText(parts[0]) + rest
  }

  /** What one key component adds to the key's text: `Ident::cast` keeps identifiers only. */
  function ComponentText(part: Option<string>): string
  {
    match part
    case Some(id) => id
    case None => ""
  }

  /** The text of a key is built component by component. */
  lemma {:induction false} KeyTextAppend(a: seq<Option<string>>, b: seq<Option<string>>)
    ensures KeyText(a + b) == KeyText(a) + KeyText(b)
    decreases |a|
  {
    if |a| > 0 {
      KeyTextAppend(a[1..], b);
      assert (a + b)[0] == a[0];
      assert (a + b)[1..] == a[1..] + b;
      calc {
        KeyText(a + b);
        ComponentText(a[0]) + KeyText(a[1..] + b);
        ComponentText(a[0]) + (KeyText(a[1..]) + KeyText(b));
        (ComponentText(a[0]) + KeyText(a[1..])) + KeyText(b);
      }
    } else {
      assert a + b == b;
    }
  }

  /** An identifier contributes its own text, any other component nothing. */
  lemma KeyTextComponent(id: string)
    ensures KeyText([Some(id)]) == id
    ensures KeyText([None]) == ""
  {
  }

  /** A returned value: the value's text without leading and trailing `\` and `"`.
      Neither end of it is one of those, it adds no character, and a value whose
      ends are neither comes back unchanged. */
  function TrimQuotes(v: string): (r: string)
    ensures |r| > 0 ==> r[0] !in QuoteChars && r[|r| - 1] !in QuoteChars
    ensures forall x :: x in r ==> x in v
    ensures (|v| > 0 ==> v[0] !in QuoteChars && v[|v| - 1] !in QuoteChars) ==> r == v
  {
    TrimMatchesUntouched(v, QuoteChars);
    TrimMatches(v, QuoteChars)
  }

  /** The returned text is a contiguous piece of the value's text: exactly what
      is left after dropping the quote characters at both ends. */
  lemma TrimQuotesSlice(v: string)
    ensures LeadingRun(v, QuoteChars) + |TrimQuotes(v)| <= |v|
    ensures TrimQuotes(v) == v[LeadingRun(v, QuoteChars)..LeadingRun(v, QuoteChars) + |TrimQuotes(v)|]
    ensures forall i :: 0 <= i < LeadingRun(v, QuoteChars) ==> v[i] in QuoteChars
    ensures forall i :: LeadingRun(v, QuoteChars) + |TrimQuotes(v)| <= i < |v| ==> v[i] in QuoteChars
  {
  }

  /** The level counters after looking at `node`: only an attribute set moves them. */
  function Enter(st: WalkState, node: Node): (r: WalkState)
    ensures node.AttrSet? ==> r.level == st.nextLevel && r.nextLevel == st.nextLevel + 1 && r.matched == st.matched
    ensures !node.AttrSet? ==> r == st
  {
    if node.AttrSet? then st.(level := st.nextLevel, nextLevel := st.nextLevel + 1) else st
  }

  /** One iteration of the walk's loop over the node `node`. */
  function StepNode(path: seq<string>, st: WalkState, node: Node): (r: Step)
    // the counters move on attribute sets only
    ensures r.Continue? ==> r.state.level == Enter(st, node).level && r.state.nextLevel == Enter(st, node).nextLevel
    // a level without a path segment skips the node
    ensures Enter(st, node).level >= |path| ==> r == Continue(Enter(st, node))
    // only a level-0 key match with a value records a value
    ensures r.Continue? && r.state.matched != st.matched ==>
      && r.state.level == 0 && node.KeyValue? && node.key.Some? && node.value.Some?
      && KeyText(node.key.value) == path[0]
      && r.state.matched == st.matched + [node.value.value]
    // a level-0 key match never returns, except for a missing value
    ensures r.Stop? && Enter(st, node).level == 0 ==> r.outcome == Malformed && node.KeyValue? && node.value.None?
    // a value is returned only from a level > 0 key match whose parent is the recorded value
    ensures r.Stop? && r.outcome.Found? ==>
      && var lv := Enter(st, node).level;
      && 0 < lv < |path| && lv - 1 < |st.matched|
      && node.KeyValue? && node.key.Some? && KeyText(node.key.value) == path[lv]
      && node.parentText == Some(st.matched[lv - 1])
      && node.value.Some? && r.outcome.text == TrimQuotes(node.value.value)
    ensures r.Stop? && r.outcome.NotFound? ==>
      && var lv := Enter(st, node).level;
      && 0 < lv < |path| && lv - 1 < |st.matched|
      && node.KeyValue? && node.key.Some? && KeyText(node.key.value) == path[lv]
      && node.parentText == Some(st.matched[lv - 1])
      && node.value.None?
    // a level-0 key match with a value records it and goes on
    ensures (Enter(st, node).level == 0 < |path| && node.KeyValue? && node.key.Some? && KeyText(node.key.value) == path[0]
      && node.value.Some?) ==> r == Continue(Enter(st, node).(matched := st.matched + [node.value.value]))
    // a level > 0 key match whose parent is the recorded value returns: the trimmed value, or nothing without one
    ensures var lv := Enter(st, node).level;
      0 < lv < |path| && lv - 1 < |st.matched|
      && node.KeyValue? && node.key.Some? && KeyText(node.key.value) == path[lv]
      && node.parentText == Some(st.matched[lv - 1])
      ==> r == Stop(if node.value.Some? then Found(TrimQuotes(node.value.value)) else NotFound)
    // a node that is no key match for its level is passed over
    ensures var lv := Enter(st, node).level;
      lv < |path| && !(node.KeyValue? && node.key.Some? && KeyText(node.key.value) == path[lv])
      ==> r == Continue(Enter(st, node))
    // so is a level > 0 match with a parent but no value recorded for its level
    ensures var lv := Enter(st, node).level;
      0 < lv < |path| && node.KeyValue? && node.key.Some? && KeyText(node.key.value) == path[lv]
      && node.parentText.Some? && lv - 1 >= |st.matched|
      ==> r == Continue(Enter(st, node))
    // the three fatal sites
    ensures r == Stop(Malformed) <==>
      && var lv := Enter(st, node).level;
      && lv < |path| && node.KeyValue? && node.key.Some? && KeyText(node.key.value) == path[lv]
      && ( (lv == 0 && node.value.None?)
        || (lv > 0 && node.parentText.None?)
        || (lv > 0 && node.parentText.Some? && lv - 1 < |st.matched| && st.matched[lv - 1] != node.parentText.value))
  {
    var st := Enter(st, node);
    if st.level >= |path| then Continue(st)
    else
      match node
      case KeyValue(Some(parts), value, parent) =>
        if KeyText(parts) != path[st.level] then Continue(st)
        else if st.level == 0 then
          (match value
           case Some(v) => Continue(st.(matched := st.matched + [v]))
           case None => Stop(Malformed))
        else
          (match parent
           case None => Stop(Malformed)
           case Some(p) =>
             if st.level - 1 >= |st.matched| then Continue(st)
             else if st.matched[st.level - 1] != p then Stop(Malformed)
             else
               (match value
                case Some(v) => Stop(Found(TrimQuotes(v)))
                case None => Stop(NotFound)))
      case _ => Continue(st)
  }

  /** Number of attribute sets among `nodes`. */
  function CountAttrSets(nodes: seq<Node>): nat
    decreases |nodes|
  {
    if |nodes| == 0 then 0 else (if nodes[0].AttrSet? then 1 else 0) + CountAttrSets(nodes[1..])
  }

  /** The walk over `nodes` from state `st`: the state it ends in, or what it returned. */
  function Run(path: seq<string>, nodes: seq<Node>, st: WalkState): (r: Step)
    ensures r.Continue? ==> r.state.nextLevel == st.nextLevel + CountAttrSets(nodes)
    ensures r.Continue? ==> r.state.level == if CountAttrSets(nodes) == 0 then st.level else r.state.nextLevel - 1
    ensures r.Continue? ==> |st.matched| <= |r.state.matched| && r.state.matched[..|st.matched|] == st.matched
    decreases |nodes|
  {
    if |nodes| == 0 then Continue(st)
    else
      match StepNode(path, st, nodes[0])
      case Stop(o) => Stop(o)
      case Continue(next) => Run(path, nodes[1..], next)
  }

  /** `get_string_at_path`: split the path on `.` and walk the document's
      children. A walk that never returns is `NotFound`; otherwise the first node
      it returns at decides. The first key match reached at a level d > 0 whose
      parent is the d-th recorded value gives its trimmed value, or `NotFound`
      when the pair has no value, and every found value comes from such a node. */
  function GetStringAtPath(nodes: seq<Node>, path: string): (r: Outcome)
    ensures Run(Split(path, '.'), nodes, Initial).Continue? ==> r == NotFound
    ensures forall i :: StopsAt(Split(path, '.'), nodes, Initial, i) ==>
      Stop(r) == StepNode(Split(path, '.'), Run(Split(path, '.'), nodes[..i], Initial).state, nodes[i])
    ensures r.Found? ==> exists i :: 0 <= i < |nodes| && FoundAt(Split(path, '.'), nodes, i, r.text)
    ensures forall i, s :: 0 <= i < |nodes| && FoundAt(Split(path, '.'), nodes, i, s) ==> r == Found(s)
    ensures forall i :: 0 <= i < |nodes| && NotFoundAt(Split(path, '.'), nodes, i) ==> r == NotFound
  {
    var segs := Split(path, '.');
    StopsDecide(segs, nodes, Initial);
    MatchesDecide(segs, nodes);
    match Run(segs, nodes, Initial)
    case Stop(o) =>
      if o.Found? then FoundHasWitness(segs, nodes, o.text); o else o
    case Continue(_) => NotFound
  }

  /** The counters depend on the nodes seen and nothing else: after k >= 1
      attribute sets `nextLevel` is k and `level` is k - 1; before any, both are 0. */
  lemma LevelsAfter(path: seq<string>, nodes: seq<Node>)
    requires Run(path, nodes, Initial).Continue?
    ensures Run(path, nodes, Initial).state.nextLevel == CountAttrSets(nodes)
    ensures Run(path, nodes, Initial).state.level == if CountAttrSets(nodes) == 0 then 0 else CountAttrSets(nodes) - 1
  {
  }

  /** Walking `a + b` is walking `a`, then, unless that returned, walking `b`. */
  lemma {:induction false} RunAppend(path: seq<string>, a: seq<Node>, b: seq<Node>, st: WalkState)
    ensures Run(path, a + b, st) ==
      match Run(path, a, st)
      case Stop(o) => Stop(o)
      case Continue(mid) => Run(path, b, mid)
    decreases |a|
  {
    if |a| == 0 {
      assert a + b == b;
    } else {
      assert (a + b)[0] == a[0];
      assert (a + b)[1..] == a[1..] + b;
      match StepNode(path, st, a[0])
      case Stop(o) =>
      case Continue(next) => RunAppend(path, a[1..], b, next);
    }
  }

  /** The walk returns at node `i`: it got through the nodes before `i` and returns at `i`. */
  predicate StopsAt(path: seq<string>, nodes: seq<Node>, st: WalkState, i: int)
  {
    && 0 <= i < |nodes|
    && Run(path, nodes[..i], st).Continue?
    && StepNode(path, Run(path, nodes[..i], st).state, nodes[i]).Stop?
  }

  /** The first node at which the walk returns decides the result. */
  lemma FirstStopWins(path: seq<string>, nodes: seq<Node>, st: WalkState, i: int)
    requires StopsAt(path, nodes, st, i)
    ensures Run(path, nodes, st) == StepNode(path, Run(path, nodes[..i], st).state, nodes[i])
  {
    assert nodes == nodes[..i] + nodes[i..];
    RunAppend(path, nodes[..i], nodes[i..], st);
    assert nodes[i..][0] == nodes[i];
  }

  /** A walk that returns does so at some node. */
  lemma {:induction false} StopHasNode(path: seq<string>, nodes: seq<Node>, st: WalkState)
    requires Run(path, nodes, st).Stop?
    ensures exists i :: StopsAt(path, nodes, st, i)
    decreases |nodes|
  {
    assert nodes[..0] == [];
    match StepNode(path, st, nodes[0])
    case Stop(o) =>
      assert StopsAt(path, nodes, st, 0);
    case Continue(next) =>
      StopHasNode(path, nodes[1..], next);
      var j :| StopsAt(path, nodes[1..], next, j);
      assert nodes[..j + 1] == [nodes[0]] + nodes[1..][..j];
      RunAppend(path, [nodes[0]], nodes[1..][..j], st);
      assert Run(path, [nodes[0]], st) == Run(path, [], next);
      assert nodes[j + 1] == nodes[1..][j];
      assert StopsAt(path, nodes, st, j + 1);
  }

  /** Whichever node the walk returns at, its step is the walk's result. */
  lemma StopsDecide(path: seq<string>, nodes: seq<Node>, st: WalkState)
    ensures forall i :: StopsAt(path, nodes, st, i) ==>
      Run(path, nodes, st) == StepNode(path, Run(path, nodes[..i], st).state, nodes[i])
  {
    forall i | StopsAt(path, nodes, st, i)
      ensures Run(path, nodes, st) == StepNode(path, Run(path, nodes[..i], st).state, nodes[i])
    {
      FirstStopWins(path, nodes, st, i);
    }
  }

  /** Node `i` is reached, and is a key match at a level d > 0 whose parent is
      the d-th recorded value: the walk returns there. */
  predicate MatchAt(segs: seq<string>, nodes: seq<Node>, i: int)
    requires 0 <= i < |nodes|
  {
    && Run(segs, nodes[..i], Initial).Continue?
    && var st := Run(segs, nodes[..i], Initial).state;
    && var lv := Enter(st, nodes[i]).level;
    && var n := nodes[i];
    && 0 < lv < |segs| && lv - 1 < |st.matched|
    && n.KeyValue? && n.key.Some? && KeyText(n.key.value) == segs[lv]
    && n.parentText == Some(st.matched[lv - 1])
  }

  /** Node `i` is such a match, and its value, trimmed, is `s`. */
  predicate FoundAt(segs: seq<string>, nodes: seq<Node>, i: int, s: string)
    requires 0 <= i < |nodes|
  {
    MatchAt(segs, nodes, i) && nodes[i].value.Some? && s == TrimQuotes(nodes[i].value.value)
  }

  /** Node `i` is such a match, and the pair has no value. */
  predicate NotFoundAt(segs: seq<string>, nodes: seq<Node>, i: int)
    requires 0 <= i < |nodes|
  {
    MatchAt(segs, nodes, i) && nodes[i].value.None?
  }

  /** A walk that returns a value does so at a node that matches and holds that value. */
  lemma FoundHasWitness(segs: seq<string>, nodes: seq<Node>, s: string)
    requires Run(segs, nodes, Initial) == Stop(Found(s))
    ensures exists i :: 0 <= i < |nodes| && FoundAt(segs, nodes, i, s)
  {
    StopHasNode(segs, nodes, Initial);
    var i :| StopsAt(segs, nodes, Initial, i);
    FirstStopWins(segs, nodes, Initial, i);
    assert FoundAt(segs, nodes, i, s);
  }

  /** The first match the walk reaches returns its trimmed value. */
  lemma FoundAtFirst(segs: seq<string>, nodes: seq<Node>, i: int, s: string)
    requires 0 <= i < |nodes| && FoundAt(segs, nodes, i, s)
    ensures Run(segs, nodes, Initial) == Stop(Found(s))
  {
    assert StopsAt(segs, nodes, Initial, i);
    FirstStopWins(segs, nodes, Initial, i);
  }

  /** The first match the walk reaches returns nothing when the pair has no value. */
  lemma NotFoundAtFirst(segs: seq<string>, nodes: seq<Node>, i: int)
    requires 0 <= i < |nodes| && NotFoundAt(segs, nodes, i)
    ensures Run(segs, nodes, Initial) == Stop(NotFound)
  {
    assert StopsAt(segs, nodes, Initial, i);
    FirstStopWins(segs, nodes, Initial, i);
  }

  lemma MatchesDecide(segs: seq<string>, nodes: seq<Node>)
    ensures forall i, s :: 0 <= i < |nodes| && FoundAt(segs, nodes, i, s) ==> Run(segs, nodes, Initial) == Stop(Found(s))
    ensures forall i :: 0 <= i < |nodes| && NotFoundAt(segs, nodes, i) ==> Run(segs, nodes, Initial) == Stop(NotFound)
  {
    forall i, s | 0 <= i < |nodes| && FoundAt(segs, nodes, i, s)
      ensures Run(segs, nodes, Initial) == Stop(Found(s))
    {
      FoundAtFirst(segs, nodes, i, s);
    }
    forall i | 0 <= i < |nodes| && NotFoundAt(segs, nodes, i)
      ensures Run(segs, nodes, Initial) == Stop(NotFound)
    {
      NotFoundAtFirst(segs, nodes, i);
    }
  }

  /** A value is only ever found one level or more below the top, so only for
      a path of at least two segments. */
  lemma FoundNeedsTwoSegments(nodes: seq<Node>, path: string)
    ensures GetStringAtPath(nodes, path).Found? ==> |Split(path, '.')| >= 2
  {
    if GetStringAtPath(nodes, path).Found? {
      var i :| 0 <= i < |nodes| && FoundAt(Split(path, '.'), nodes, i, GetStringAtPath(nodes, path).text);
    }
  }

  /** A path without a `.` is one segment, so it can never be found: a
      level-0 match is only recorded, and no later level has a segment. */
  lemma SingleSegmentNeverFound(nodes: seq<Node>, path: string)
    requires '.' !in path
    ensures !GetStringAtPath(nodes, path).Found?
  {
    assert multiset(path)['.'] == 0;
    SplitCount(path, '.');
    FoundNeedsTwoSegments(nodes, path);
  }

  /** A path splits into one more segment than it has dots; empty segments are kept. */
  lemma PathSegments(path: string)
    ensures |Split(path, '.')| == multiset(path)['.'] + 1
    ensures Join(Split(path, '.'), '.') == path
  {
    SplitCount(path, '.');
    JoinSplit(path, '.');
  }
}

=== FILE: nix_parser_examples.dfy ===
/** Worked queries against small documents, each written as the flat node
    stream the walk scans: the `develop.rev` query of the first unit test, the
    `holochain.cargoLock` query of the updater with its block read into the
    output-hash table, nvfetcher's layout in which that query misses, two
    orders of the sibling case the parent check is meant for, and a
    three-segment path whose deepest check reads a level-0 record. */
module NixParserExamples {
  import opened Wrappers
  import opened Text
  import opened NixParser
  import opened CargoLock

  /** Walking a node the step goes on from. */
  lemma RunCons(path: seq<string>, n: Node, rest: seq<Node>, st: WalkState, next: WalkState)
    requires StepNode(path, st, n) == Continue(next)
    ensures Run(path, [n] + rest, st) == Run(path, rest, next)
  {
    assert ([n] + rest)[1..] == rest;
  }

  /** Walking a node the step returns at. */
  lemma RunStop(path: seq<string>, n: Node, rest: seq<Node>, st: WalkState, o: Outcome)
    requires StepNode(path, st, n) == Stop(o)
    ensures Run(path, [n] + rest, st) == Stop(o)
  {
  }

  /** An attribute set moves the counters and nothing else. */
  lemma StepAttrSet(path: seq<string>, st: WalkState)
    ensures StepNode(path, st, AttrSet) == Continue(WalkState(st.nextLevel, st.nextLevel + 1, st.matched))
  {
  }

  /** A level-0 pair whose one-identifier key is the first segment records its value. */
  lemma StepRecord(path: seq<string>, st: WalkState, id: string, v: string, p: Option<string>)
    requires st.level == 0 < |path| && path[0] == id
    ensures StepNode(path, st, KeyValue(Some([Some(id)]), Some(v), p)) == Continue(st.(matched := st.matched + [v]))
  {
    KeyTextComponent(id);
  }

  /** A pair whose key is not its level's segment is passed over. */
  lemma StepPass(path: seq<string>, st: WalkState, id: string, v: string, p: Option<string>)
    requires st.level < |path| && path[st.level] != id
    ensures StepNode(path, st, KeyValue(Some([Some(id)]), Some(v), p)) == Continue(st)
  {
    KeyTextComponent(id);
  }

  /** A deeper pair whose key is its level's segment is checked against the recorded value. */
  lemma StepCheck(path: seq<string>, st: WalkState, id: string, v: string, p: string)
    requires 0 < st.level < |path| && path[st.level] == id && st.level - 1 < |st.matched|
    ensures StepNode(path, st, KeyValue(Some([Some(id)]), Some(v), Some(p))) ==
      if st.matched[st.level - 1] == p then Stop(Found(TrimQuotes(v))) else Stop(Malformed)
  {
    KeyTextComponent(id);
  }

  /** A deeper match with no value recorded for its level is passed over. */
  lemma StepUnrecorded(path: seq<string>, st: WalkState, id: string, v: string, p: string)
    requires 0 < st.level < |path| && path[st.level] == id && st.level - 1 >= |st.matched|
    ensures StepNode(path, st, KeyValue(Some([Some(id)]), Some(v), Some(p))) == Continue(st)
  {
    KeyTextComponent(id);
  }

  /** A quoted scalar loses its quotes. */
  lemma QuotedValue()
    ensures TrimQuotes("\"abc\"") == "abc"
  {
    assert "\"abc\"" == "\"" + "abc" + "\"";
    TrimMatchesCore("\"", "abc", "\"", QuoteChars);
  }

  /** The query path of the block example has two segments. */
  lemma LockPath()
    ensures Split("holochain.cargoLock", '.') == ["holochain", "cargoLock"]
  {
    assert "holochain.cargoLock" == "holochain" + ['.'] + "cargoLock";
    SplitTwo("holochain", "cargoLock", '.');
  }

  const RootText := "{ develop = { rev = \"abc\"; }; }"
  const DevelopText := "{ rev = \"abc\"; }"

  /** The query path of the first unit test has two segments. */
  lemma RevisionPath()
    ensures Split("develop.rev", '.') == ["develop", "rev"]
  {
    assert "develop.rev" == "develop" + ['.'] + "rev";
    SplitTwo("develop", "rev", '.');
  }

  /** `{ develop = { rev = "abc"; }; }`: the query for `develop.rev` returns
      the revision without its quotes. */
  lemma ExampleNestedRevision()
    ensures GetStringAtPath(
      [ AttrSet,
        KeyValue(Some([Some("develop")]), Some(DevelopText), Some(RootText)),
        AttrSet,
        KeyValue(Some([Some("rev")]), Some("\"abc\""), Some(DevelopText)) ],
      "develop.rev") == Found("abc")
  {
    RevisionPath();
    QuotedValue();
    TwoLevelRun("develop", "rev", DevelopText, "\"abc\"", RootText);
  }

  /** The walk over a set holding a set: the inner key's value is found, its
      parent being the outer value recorded at level 0. */
  lemma TwoLevelRun(k0: string, k1: string, v0: string, v1: string, root: string)
    ensures Run([k0, k1],
      [ AttrSet,
        KeyValue(Some([Some(k0)]), Some(v0), Some(root)),
        AttrSet,
        KeyValue(Some([Some(k1)]), Some(v1), Some(v0)) ],
      Initial) == Stop(Found(TrimQuotes(v1)))
  {
    var segs := [k0, k1];
    var n1 := KeyValue(Some([Some(k0)]), Some(v0), Some(root));
    var n3 := KeyValue(Some([Some(k1)]), Some(v1), Some(v0));
    var s1 := WalkState(0, 1, []);
    var s2 := WalkState(0, 1, [v0]);
    var s3 := WalkState(1, 2, [v0]);
    StepAttrSet(segs, Initial);
    StepRecord(segs, s1, k0, v0, Some(root));
    StepAttrSet(segs, s2);
    StepCheck(segs, s3, k1, v1, v0);
    RunStop(segs, n3, [], s3, Found(TrimQuotes(v1)));
    RunCons(segs, AttrSet, [n3], s2, s3);
    RunCons(segs, n1, [AttrSet, n3], s1, s2);
    RunCons(segs, AttrSet, [n1, AttrSet, n3], Initial, s1);
  }

  /** A value that is itself an attribute set comes back verbatim: braces,
      line breaks and the quotes inside it are all kept, whatever the block holds. */
  lemma ExampleBlockVerbatim(block: string, pkg: string, root: string)
    requires |block| >= 2 && block[0] == '{' && block[|block| - 1] == '}'
    ensures GetStringAtPath(
      [ AttrSet,
        KeyValue(Some([Some("holochain")]), Some(pkg), Some(root)),
        AttrSet,
        KeyValue(Some([Some("cargoLock")]), Some(block), Some(pkg)) ],
      "holochain.cargoLock") == Found(block)
  {
    LockPath();
    BlockRun(block, pkg, root);
  }

  /** The walk behind `ExampleBlockVerbatim`. */
  lemma BlockRun(block: string, pkg: string, root: string)
    requires |block| >= 2 && block[0] == '{' && block[|block| - 1] == '}'
    ensures Run(["holochain", "cargoLock"],
      [ AttrSet,
        KeyValue(Some([Some("holochain")]), Some(pkg), Some(root)),
        AttrSet,
        KeyValue(Some([Some("cargoLock")]), Some(block), Some(pkg)) ],
      Initial) == Stop(Found(block))
  {
    TrimMatchesUntouched(block, QuoteChars);
    TwoLevelRun("holochain", "cargoLock", pkg, block, root);
  }

  /** A `cargoLock` block written out from pairs, in a stream where no attribute
      set comes between `holochain`'s set and the `cargoLock` pair, is found by
      the lookup and read back as the table those pairs collect to. */
  lemma ExampleOutputHashes(es: seq<(string, string)>, pkg: string, root: string)
    requires forall i :: 0 <= i < |es| ==> Bindable(es[i])
    ensures OutputHashes(GetStringAtPath(
      [ AttrSet,
        KeyValue(Some([Some("holochain")]), Some(pkg), Some(root)),
        AttrSet,
        KeyValue(Some([Some("cargoLock")]), Some(Render(es)), Some(pkg)) ],
      "holochain.cargoLock")) == Some(Collect(es))
  {
    var block := Render(es);
    assert block[0] == '{' && block[|block| - 1] == '}';
    ExampleBlockVerbatim(block, pkg, root);
    RenderRoundTrip(es);
  }

  /** In nvfetcher's layout `src = fetchgit { … }` comes before `cargoLock`:
      its set moves the counter to level 2, which the two-segment path does not
      reach, so the `cargoLock` pair is passed over, the lookup finds nothing
      and the output hashes are the empty table. */
  lemma ExampleLockAfterSource(block: string, pkg: string, fetch: string, url: string, root: string)
    ensures GetStringAtPath(
      [ AttrSet,
        KeyValue(Some([Some("holochain")]), Some(pkg), Some(root)),
        AttrSet,
        KeyValue(Some([Some("src")]), Some(fetch), Some(pkg)),
        AttrSet,
        KeyValue(Some([Some("url")]), Some(url), Some(fetch)),
        KeyValue(Some([Some("cargoLock")]), Some(block), Some(pkg)) ],
      "holochain.cargoLock") == NotFound
    ensures OutputHashes(GetStringAtPath(
      [ AttrSet,
        KeyValue(Some([Some("holochain")]), Some(pkg), Some(root)),
        AttrSet,
        KeyValue(Some([Some("src")]), Some(fetch), Some(pkg)),
        AttrSet,
        KeyValue(Some([Some("url")]), Some(url), Some(fetch)),
        KeyValue(Some([Some("cargoLock")]), Some(block), Some(pkg)) ],
      "holochain.cargoLock")) == Some(map[])
  {
    LockPath();
    assert "src" != "cargoLock";
    NestedSetBeforeRun("holochain", "cargoLock", "src", "url", pkg, fetch, url, block, root);
  }

  /** The walk behind `ExampleLockAfterSource`, for any keys where the set
      holding the wanted pair is preceded by a pair whose value is a set. */
  lemma NestedSetBeforeRun(k0: string, k1: string, s: string, u: string, v0: string, vs: string, vu: string, v1: string, root: string)
    requires s != k1
    ensures Run([k0, k1],
      [ AttrSet,
        KeyValue(Some([Some(k0)]), Some(v0), Some(root)),
        AttrSet,
        KeyValue(Some([Some(s)]), Some(vs), Some(v0)),
        AttrSet,
        KeyValue(Some([Some(u)]), Some(vu), Some(vs)),
        KeyValue(Some([Some(k1)]), Some(v1), Some(v0)) ],
      Initial) == Continue(WalkState(2, 3, [v0]))
  {
    var segs := [k0, k1];
    var n1 := KeyValue(Some([Some(k0)]), Some(v0), Some(root));
    var n3 := KeyValue(Some([Some(s)]), Some(vs), Some(v0));
    var n5 := KeyValue(Some([Some(u)]), Some(vu), Some(vs));
    var n6 := KeyValue(Some([Some(k1)]), Some(v1), Some(v0));
    var s1 := WalkState(0, 1, []);
    var s2 := WalkState(0, 1, [v0]);
    var s3 := WalkState(1, 2, [v0]);
    var s4 := WalkState(2, 3, [v0]);
    StepAttrSet(segs, Initial);
    StepRecord(segs, s1, k0, v0, Some(root));
    StepAttrSet(segs, s2);
    StepPass(segs, s3, s, vs, Some(v0));
    StepAttrSet(segs, s3);
    assert StepNode(segs, s4, n5) == Continue(s4);
    assert StepNode(segs, s4, n6) == Continue(s4);
    RunCons(segs, n6, [], s4, s4);
    RunCons(segs, n5, [n6], s4, s4);
    RunCons(segs, AttrSet, [n5, n6], s3, s4);
    RunCons(segs, n3, [AttrSet, n5, n6], s3, s3);
    RunCons(segs, AttrSet, [n3, AttrSet, n5, n6], s2, s3);
    RunCons(segs, n1, [AttrSet, n3, AttrSet, n5, n6], s1, s2);
    RunCons(segs, AttrSet, [n1, AttrSet, n3, AttrSet, n5, n6], Initial, s1);
  }

  /** Two sibling sets both define `rev`, in a stream that lists both outer
      pairs before either inner set. Querying `main.rev` records only `main`'s
      value, so the first `rev` met, whose parent is `develop`'s set, fails the
      parent comparison: that is the source's `assert_eq!`, so the query is
      fatal rather than skipping to `main`'s `rev`. */
  lemma ExampleSiblingMismatchIsFatal()
    ensures GetStringAtPath(
      [ AttrSet,
        KeyValue(Some([Some("develop")]), Some(DevelopA), Some("{ }")),
        KeyValue(Some([Some("main")]), Some(MainB), Some("{ }")),
        AttrSet,
        KeyValue(Some([Some("rev")]), Some("\"a\""), Some(DevelopA)),
        AttrSet,
        KeyValue(Some([Some("rev")]), Some("\"b\""), Some(MainB)) ],
      "main.rev") == Malformed
  {
    assert "main.rev" == "main" + ['.'] + "rev";
    SplitTwo("main", "rev", '.');
    assert "develop" != "main" && DevelopA != MainB;
    SiblingRun("develop", "main", "rev", DevelopA, MainB, "\"a\"", "\"b\"", "{ }");
  }

  /** The walk behind `ExampleSiblingMismatchIsFatal`, for any two distinct siblings. */
  lemma SiblingRun(a: string, b: string, k: string, va: string, vb: string, x: string, y: string, root: string)
    requires a != b && va != vb
    ensures Run([b, k],
      [ AttrSet,
        KeyValue(Some([Some(a)]), Some(va), Some(root)),
        KeyValue(Some([Some(b)]), Some(vb), Some(root)),
        AttrSet,
        KeyValue(Some([Some(k)]), Some(x), Some(va)),
        AttrSet,
        KeyValue(Some([Some(k)]), Some(y), Some(vb)) ],
      Initial) == Stop(Malformed)
  {
    var segs := [b, k];
    var n1 := KeyValue(Some([Some(a)]), Some(va), Some(root));
    var n2 := KeyValue(Some([Some(b)]), Some(vb), Some(root));
    var n4 := KeyValue(Some([Some(k)]), Some(x), Some(va));
    var n6 := KeyValue(Some([Some(k)]), Some(y), Some(vb));
    var s1 := WalkState(0, 1, []);
    var s3 := WalkState(0, 1, [vb]);
    var s4 := WalkState(1, 2, [vb]);
    StepAttrSet(segs, Initial);
    StepPass(segs, s1, a, va, Some(root));
    StepRecord(segs, s1, b, vb, Some(root));
    StepAttrSet(segs, s3);
    StepCheck(segs, s4, k, x, va);
    RunStop(segs, n4, [AttrSet, n6], s4, Malformed);
    RunCons(segs, AttrSet, [n4, AttrSet, n6], s3, s4);
    RunCons(segs, n2, [AttrSet, n4, AttrSet, n6], s1, s3);
    RunCons(segs, n1, [n2, AttrSet, n4, AttrSet, n6], s1, s1);
    RunCons(segs, AttrSet, [n1, n2, AttrSet, n4, AttrSet, n6], Initial, s1);
  }

  /** The same two siblings in document order, each outer pair followed by
      its own set: `develop` is passed over at level 0, and by the time `main`
      is met the counter is at level 1, so nothing is ever recorded and
      `main.rev` is not found. */
  lemma ExampleSiblingsInDocumentOrder()
    ensures GetStringAtPath(
      [ AttrSet,
        KeyValue(Some([Some("develop")]), Some(DevelopA), Some("{ }")),
        AttrSet,
        KeyValue(Some([Some("rev")]), Some("\"a\""), Some(DevelopA)),
        KeyValue(Some([Some("main")]), Some(MainB), Some("{ }")),
        AttrSet,
        KeyValue(Some([Some("rev")]), Some("\"b\""), Some(MainB)) ],
      "main.rev") == NotFound
  {
    assert "main.rev" == "main" + ['.'] + "rev";
    SplitTwo("main", "rev", '.');
    assert "develop" != "main" && "main" != "rev";
    DocumentOrderRun("develop", "main", "rev", DevelopA, MainB, "\"a\"", "\"b\"", "{ }");
  }

  /** The walk behind `ExampleSiblingsInDocumentOrder`, for any two siblings
      whose names differ from each other and from the inner key. */
  lemma DocumentOrderRun(a: string, b: string, k: string, va: string, vb: string, x: string, y: string, root: string)
    requires a != b && b != k
    ensures Run([b, k],
      [ AttrSet,
        KeyValue(Some([Some(a)]), Some(va), Some(root)),
        AttrSet,
        KeyValue(Some([Some(k)]), Some(x), Some(va)),
        KeyValue(Some([Some(b)]), Some(vb), Some(root)),
        AttrSet,
        KeyValue(Some([Some(k)]), Some(y), Some(vb)) ],
      Initial) == Continue(WalkState(2, 3, []))
  {
    var segs := [b, k];
    var n1 := KeyValue(Some([Some(a)]), Some(va), Some(root));
    var n3 := KeyValue(Some([Some(k)]), Some(x), Some(va));
    var n4 := KeyValue(Some([Some(b)]), Some(vb), Some(root));
    var n6 := KeyValue(Some([Some(k)]), Some(y), Some(vb));
    var s1 := WalkState(0, 1, []);
    var s2 := WalkState(1, 2, []);
    var s3 := WalkState(2, 3, []);
    StepAttrSet(segs, Initial);
    StepPass(segs, s1, a, va, Some(root));
    StepAttrSet(segs, s1);
    StepUnrecorded(segs, s2, k, x, va);
    StepPass(segs, s2, b, vb, Some(root));
    StepAttrSet(segs, s2);
    assert StepNode(segs, s3, n6) == Continue(s3);
    RunCons(segs, n6, [], s3, s3);
    RunCons(segs, AttrSet, [n6], s2, s3);
    RunCons(segs, n4, [AttrSet, n6], s2, s2);
    RunCons(segs, n3, [n4, AttrSet, n6], s2, s2);
    RunCons(segs, AttrSet, [n3, n4, AttrSet, n6], s1, s2);
    RunCons(segs, n1, [AttrSet, n3, n4, AttrSet, n6], s1, s1);
    RunCons(segs, AttrSet, [n1, AttrSet, n3, n4, AttrSet, n6], Initial, s1);
  }

  /** Values are recorded at level 0 only, so a match at level 2 is checked
      against the second value recorded for the first segment, not against
      anything found at level 1: here the result is decided by `b` alone. */
  lemma DeepLevelChecksLevelZeroRecord(x: string, y: string, z: string, a: string, b: string, v: string, p: string, root: string)
    ensures Run([x, y, z],
      [ KeyValue(Some([Some(x)]), Some(a), Some(root)),
        KeyValue(Some([Some(x)]), Some(b), Some(root)),
        AttrSet,
        AttrSet,
        AttrSet,
        KeyValue(Some([Some(z)]), Some(v), Some(p)) ],
      Initial) == if b == p then Stop(Found(TrimQuotes(v))) else Stop(Malformed)
  {
    var segs := [x, y, z];
    var n0 := KeyValue(Some([Some(x)]), Some(a), Some(root));
    var n1 := KeyValue(Some([Some(x)]), Some(b), Some(root));
    var n5 := KeyValue(Some([Some(z)]), Some(v), Some(p));
    var s1 := WalkState(0, 0, [a]);
    var s2 := WalkState(0, 0, [a, b]);
    StepRecord(segs, Initial, x, a, Some(root));
    StepRecord(segs, s1, x, b, Some(root));
    ThreeSetsThenCheck(segs, s2, n5);
    RunCons(segs, n1, [AttrSet, AttrSet, AttrSet, n5], s1, s2);
    RunCons(segs, n0, [n1, AttrSet, AttrSet, AttrSet, n5], Initial, s1);
  }

  /** The tail of `DeepLevelChecksLevelZeroRecord`: three sets take the walk to
      level 2, where the pair is checked against the second record. */
  lemma ThreeSetsThenCheck(segs: seq<string>, st: WalkState, n: Node)
    requires |segs| == 3 && st == WalkState(0, 0, st.matched) && |st.matched| == 2
    requires n.KeyValue? && n.key == Some([Some(segs[2])]) && n.value.Some? && n.parentText.Some?
    ensures Run(segs, [AttrSet, AttrSet, AttrSet, n], st) ==
      if st.matched[1] == n.parentText.value then Stop(Found(TrimQuotes(n.value.value))) else Stop(Malformed)
  {
    var s3 := st.(nextLevel := 1);
    var s4 := WalkState(1, 2, st.matched);
    var s5 := WalkState(2, 3, st.matched);
    var o := if st.matched[1] == n.parentText.value then Found(TrimQuotes(n.value.value)) else Malformed;
    StepAttrSet(segs, st);
    StepAttrSet(segs, s3);
    StepAttrSet(segs, s4);
    StepCheck(segs, s5, segs[2], n.value.value, n.parentText.value);
    RunStop(segs, n, [], s5, o);
    RunCons(segs, AttrSet, [n], s4, s5);
    RunCons(segs, AttrSet, [AttrSet, n], s3, s4);
    RunCons(segs, AttrSet, [AttrSet, AttrSet, n], st, s3);
  }

  const DevelopA := "{ rev = \"a\"; }"
  const MainB := "{ rev = \"b\"; }"
}

=== FILE: text.dfy ===
/** The string operations of Rust's `str` that the tool relies on, restricted to
    ASCII semantics: finding a character, `split`, `split_once`/`splitn(2, _)`,
    `trim_matches`, `trim`, `to_lowercase` and `replace(c, "")`. */
module Text {
  import opened Wrappers

  /** Characters Rust's `char::is_whitespace` accepts within ASCII. */
  const Whitespace: set<char> := {' ', '\t', '\n', '\U{B}', '\U{C}', '\r'}

  /** Index of the first occurrence of `c` in `s`. */
  function IndexOf(s: string, c: char): (r: Option<nat>)
    ensures r.None? <==> c !in s
    ensures r.Some? ==> r.value < |s| && s[r.value] == c && c !in s[..r.value]
  {
    if |s| == 0 then None
    else if s[0] == c then Some(0)
    else
      match IndexOf(s[1..], c)
      case None => None
      case Some(i) =>
        assert s[..i + 1] == [s[0]] + s[1..][..i];
        Some(i + 1)
  }

  /** Splits `s` at the first `c`, dropping that `c`; `None` when `s` has no `c`.
      This is both `split_once(c)` and the two-element `splitn(2, c)`. */
  function SplitOnce(s: string, c: char): (r: Option<(string, string)>)
    ensures r.None? <==> c !in s
    ensures r.Some? ==> s == r.value.0 + [c] + r.value.1 && c !in r.value.0
  {
    match IndexOf(s, c)
    case None => None
    case Some(i) =>
      assert s == s[..i] + [c] + s[i + 1..];
      Some((s[..i], s[i + 1..]))
  }

  /** `s.split(c)`: every piece between separators, empty pieces included. */
  function Split(s: string, c: char): (r: seq<string>)
    ensures |r| >= 1
    ensures forall i :: 0 <= i < |r| ==> c !in r[i]
    decreases |s|
  {
    match SplitOnce(s, c)
    case None => [s]
    case Some((head, tail)) => [head] + Split(tail, c)
  }

  /** The inverse of `Split`: the pieces with one `c` between neighbours. */
  function Join(pieces: seq<string>, c: char): string
    decreases |pieces|
  {
    if |pieces| == 0 then ""
    else if |pieces| == 1 then pieces[0]
    else pieces[0] + [c] + Join(pieces[1..], c)
  }

  /** Putting the separators back between the pieces gives the input back. */
  lemma {:induction false} JoinSplit(s: string, c: char)
    ensures Join(Split(s, c), c) == s
    decreases |s|
  {
    match SplitOnce(s, c)
    case None =>
    case Some((head, tail)) =>
      JoinSplit(tail, c);
      assert Split(s, c) == [head] + Split(tail, c);
      assert Split(s, c)[1..] == Split(tail, c);
  }

  /** Splitting the joined pieces gives the pieces back, provided none holds a separator. */
  lemma {:induction false} SplitJoin(pieces: seq<string>, c: char)
    requires |pieces| >= 1
    requires forall i :: 0 <= i < |pieces| ==> c !in pieces[i]
    ensures Split(Join(pieces, c), c) == pieces
    decreases |pieces|
  {
    if |pieces| == 1 {
      assert Join(pieces, c) == pieces[0];
    } else {
      var s := Join(pieces, c);
      var rest := Join(pieces[1..], c);
      assert s == pieces[0] + [c] + rest;
      assert s[|pieces[0]|] == c;
      assert s[..|pieces[0]|] == pieces[0];
      assert s[|pieces[0]| + 1..] == rest;
      var o := SplitOnce(s, c);
      assert o.Some?;
      assert o.value.0 == pieces[0] && o.value.1 == rest by {
        SplitOnceUnique(s, c, pieces[0], rest);
      }
      SplitJoin(pieces[1..], c);
    }
  }

  /** A text with exactly one separator splits into the parts on either side of it. */
  lemma SplitTwo(a: string, b: string, c: char)
    requires c !in a && c !in b
    ensures Split(a + [c] + b, c) == [a, b]
  {
    SplitOnceUnique(a + [c] + b, c, a, b);
  }

  /** A decomposition `head + [c] + tail` with no `c` in `head` is the one `SplitOnce` finds. */
  lemma SplitOnceUnique(s: string, c: char, head: string, tail: string)
    requires s == head + [c] + tail
    requires c !in head
    ensures SplitOnce(s, c) == Some((head, tail))
  {
    var i := IndexOf(s, c).value;
    assert s[|head|] == c;
    assert forall j :: 0 <= j < |head| ==> s[j] == head[j];
    assert forall j :: 0 <= j < i ==> s[j] == s[..i][j];
    assert s[..i] == head;
    assert s[i + 1..] == tail;
  }

  /** The joined text starts with the first piece. */
  lemma {:induction false} JoinHead(pieces: seq<string>, c: char)
    requires |pieces| > 0
    ensures |Join(pieces, c)| >= |pieces[0]|
    ensures Join(pieces, c)[..|pieces[0]|] == pieces[0]
  {
    if |pieces| > 1 {
      assert Join(pieces, c) == pieces[0] + ([c] + Join(pieces[1..], c));
    }
  }

  /** An empty last piece adds one trailing separator. */
  lemma {:induction false} JoinAppendEmpty(pieces: seq<string>, c: char)
    requires |pieces| > 0
    ensures Join(pieces + [""], c) == Join(pieces, c) + [c]
    decreases |pieces|
  {
    if |pieces| == 1 {
      assert pieces + [""] == [pieces[0], ""];
    } else {
      assert (pieces + [""])[1..] == pieces[1..] + [""];
      JoinAppendEmpty(pieces[1..], c);
    }
  }

  /** A trailing separator adds one empty last piece. */
  lemma SplitTrailing(pieces: seq<string>, c: char)
    requires |pieces| > 0
    requires forall i :: 0 <= i < |pieces| ==> c !in pieces[i]
    ensures Split(Join(pieces, c) + [c], c) == pieces + [""]
  {
    var ps := pieces + [""];
    assert forall i :: 0 <= i < |ps| ==> c !in ps[i] by {
      assert forall i :: 0 <= i < |pieces| ==> ps[i] == pieces[i];
    }
    JoinAppendEmpty(pieces, c);
    SplitJoin(ps, c);
  }

  /** One more piece than there are separators. */
  lemma {:induction false} SplitCount(s: string, c: char)
    ensures |Split(s, c)| == multiset(s)[c] + 1
    decreases |s|
  {
    match SplitOnce(s, c)
    case None =>
    case Some((head, tail)) =>
      SplitCount(tail, c);
      assert multiset(s) == multiset(head) + multiset([c]) + multiset(tail);
  }

  /** Length of the longest prefix of `s` made of characters in `cs`. */
  function LeadingRun(s: string, cs: set<char>): (n: nat)
    ensures n <= |s|
    ensures forall i :: 0 <= i < n ==> s[i] in cs
    ensures n < |s| ==> s[n] !in cs
    decreases |s|
  {
    if |s| > 0 && s[0] in cs then 1 + LeadingRun(s[1..], cs) else 0
  }

  /** Length of the longest suffix of `s` made of characters in `cs`. */
  function TrailingRun(s: string, cs: set<char>): (n: nat)
    ensures n <= |s|
    ensures forall i :: |s| - n <= i < |s| ==> s[i] in cs
    ensures n < |s| ==> s[|s| - n - 1] !in cs
    decreases |s|
  {
    if |s| > 0 && s[|s| - 1] in cs then 1 + TrailingRun(s[..|s| - 1], cs) else 0
  }

  /** `s.trim_matches(|c| c in cs)`: `s` without its leading and trailing run of `cs`. */
  function TrimMatches(s: string, cs: set<char>): (r: string)
    ensures LeadingRun(s, cs) + |r| <= |s|
    ensures r == s[LeadingRun(s, cs)..LeadingRun(s, cs) + |r|]
    ensures forall i :: LeadingRun(s, cs) + |r| <= i < |s| ==> s[i] in cs
    ensures |r| > 0 ==> r[0] !in cs && r[|r| - 1] !in cs
    ensures forall x :: x in r ==> x in s
  {
    var a := LeadingRun(s, cs);
    var rest := s[a..];
    var b := TrailingRun(rest, cs);
    assert forall i :: a + |rest| - b <= i < |s| ==> s[i] == rest[i - a];
    rest[..|rest| - b]
  }

  /** `s.trim()`: neither end of the result is whitespace, and text whose ends
      are not whitespace is left alone. */
  function Trim(s: string): (r: string)
    ensures |r| > 0 ==> r[0] !in Whitespace && r[|r| - 1] !in Whitespace
    ensures (|s| > 0 ==> s[0] !in Whitespace && s[|s| - 1] !in Whitespace) ==> r == s
  {
    TrimMatchesUntouched(s, Whitespace);
    TrimMatches(s, Whitespace)
  }

  /** Trimming leaves the text alone when neither end is a trimmed character. */
  lemma TrimMatchesUntouched(s: string, cs: set<char>)
    ensures (|s| > 0 ==> s[0] !in cs && s[|s| - 1] !in cs) ==> TrimMatches(s, cs) == s
  {
    if |s| > 0 ==> s[0] !in cs && s[|s| - 1] !in cs {
      assert LeadingRun(s, cs) == 0;
    }
  }

  /** `a + m + b` trims to `m` when `a` and `b` are made of trimmed characters and
      `m` neither starts nor ends with one. */
  lemma TrimMatchesCore(a: string, m: string, b: string, cs: set<char>)
    requires forall i :: 0 <= i < |a| ==> a[i] in cs
    requires forall i :: 0 <= i < |b| ==> b[i] in cs
    requires |m| > 0 && m[0] !in cs && m[|m| - 1] !in cs
    ensures TrimMatches(a + m + b, cs) == m
  {
    var s := a + m + b;
    assert forall i :: 0 <= i < |a| ==> s[i] == a[i];
    assert s[|a|] == m[0];
    assert s[|a| + |m| - 1] == m[|m| - 1];
    assert forall i :: |a| + |m| <= i < |s| ==> s[i] == b[i - |a| - |m|];
    var n := LeadingRun(s, cs);
    assert n == |a|;
    var r := TrimMatches(s, cs);
    assert |r| == |m|;
    assert r == s[|a|..|a| + |m|];
  }

  /** Padding made of trimmed characters is trimmed away with the rest: `a + s + b`
      trims to what `s` trims to, whatever `s` is. */
  lemma TrimMatchesPadded(a: string, s: string, b: string, cs: set<char>)
    requires forall i :: 0 <= i < |a| ==> a[i] in cs
    requires forall i :: 0 <= i < |b| ==> b[i] in cs
    ensures TrimMatches(a + s + b, cs) == TrimMatches(s, cs)
  {
    var m := TrimMatches(s, cs);
    if |m| > 0 {
      var front, back := TrimMatchesSplit(s, cs);
      PaddedAround(a, front, m, back, b, cs);
      TrimMatchesCore(a + front, m, back + b, cs);
    } else {
      TrimmedEmptyAllTrimmed(s, cs);
      PaddedAround(a, s, "", "", b, cs);
      AllTrimmedEmpty(a + s + b, cs);
    }
  }

  /** The text is its trimmed prefix, the trimmed result and its trimmed suffix. */
  lemma TrimMatchesSplit(s: string, cs: set<char>) returns (front: string, back: string)
    ensures s == front + TrimMatches(s, cs) + back
    ensures forall i :: 0 <= i < |front| ==> front[i] in cs
    ensures forall i :: 0 <= i < |back| ==> back[i] in cs
  {
    var lo := LeadingRun(s, cs);
    var m := TrimMatches(s, cs);
    front := s[..lo];
    back := s[lo + |m|..];
    assert s == front + m + back;
  }

  /** A text that trims to nothing is made only of trimmed characters. */
  lemma TrimmedEmptyAllTrimmed(s: string, cs: set<char>)
    requires TrimMatches(s, cs) == ""
    ensures forall i :: 0 <= i < |s| ==> s[i] in cs
  {
  }

  /** Joining trimmed padding onto trimmed padding keeps it trimmed, and the
      parts regroup around the core `m`. */
  lemma PaddedAround(a: string, front: string, m: string, back: string, b: string, cs: set<char>)
    requires forall i :: 0 <= i < |a| ==> a[i] in cs
    requires forall i :: 0 <= i < |front| ==> front[i] in cs
    requires forall i :: 0 <= i < |back| ==> back[i] in cs
    requires forall i :: 0 <= i < |b| ==> b[i] in cs
    ensures a + (front + m + back) + b == (a + front) + m + (back + b)
    ensures forall i :: 0 <= i < |a + front| ==> (a + front)[i] in cs
    ensures forall i :: 0 <= i < |back + b| ==> (back + b)[i] in cs
  {
  }

  /** Text made only of trimmed characters trims to nothing. */
  lemma AllTrimmedEmpty(s: string, cs: set<char>)
    requires forall i :: 0 <= i < |s| ==> s[i] in cs
    ensures TrimMatches(s, cs) == ""
  {
    assert LeadingRun(s, cs) == |s|;
  }

  /** `trim` ignores whitespace padding: `w1 + s + w2` trims to what `s` trims to. */
  lemma TrimPadded(w1: string, s: string, w2: string)
    requires forall i :: 0 <= i < |w1| ==> w1[i] in Whitespace
    requires forall i :: 0 <= i < |w2| ==> w2[i] in Whitespace
    ensures Trim(w1 + s + w2) == Trim(s)
  {
    TrimMatchesPadded(w1, s, w2, Whitespace);
  }

  /** The ASCII case mapping of `char::to_lowercase`. */
  function LowerChar(c: char): char
  {
    if 'A' <= c <= 'Z' then (c as int + 32) as char else c
  }

  /** `s.to_lowercase()` on ASCII text: the same length, each character mapped
      on its own, no upper-case letter left, and text without one unchanged. */
  function Lower(s: string): (r: string)
    ensures |r| == |s|
    ensures forall i :: 0 <= i < |s| ==> r[i] == LowerChar(s[i])
    ensures NoUpper(r)
    ensures NoUpper(s) ==> r == s
  {
    seq(|s|, i requires 0 <= i < |s| => LowerChar(s[i]))
  }

  /** No ASCII upper-case letter occurs in `s`. */
  predicate NoUpper(s: string)
  {
    forall i :: 0 <= i < |s| ==> !('A' <= s[i] <= 'Z')
  }

  /** Lower-casing leaves no upper-case letter, changes nothing that has none,
      and lower-casing twice is lower-casing once. */
  lemma LowerNormalises(s: string)
    ensures NoUpper(Lower(s))
    ensures NoUpper(s) ==> Lower(s) == s
    ensures Lower(Lower(s)) == Lower(s)
  {
  }

  /** Text made of characters of a text without upper case has none either. */
  lemma NoUpperWithin(s: string, t: string)
    requires NoUpper(s)
    requires forall x :: x in t ==> x in s
    ensures NoUpper(t)
  {
    forall i | 0 <= i < |t|
      ensures !('A' <= t[i] <= 'Z')
    {
      assert t[i] in t;
      var j :| 0 <= j < |s| && s[j] == t[i];
    }
  }

  /** Lower-casing works character by character, so it distributes over concatenation. */
  lemma LowerAppend(a: string, b: string)
    ensures Lower(a + b) == Lower(a) + Lower(b)
  {
  }

  /** `s.replace(c, "")`: `s` with every `c` removed. */
  function RemoveAll(s: string, c: char): (r: string)
    ensures c !in r
    ensures |r| == |s| - multiset(s)[c]
    ensures forall i :: 0 <= i < |r| ==> r[i] in s
    ensures c !in s ==> r == s
    decreases |s|
  {
    if |s| == 0 then ""
    else
      var rest := RemoveAll(s[1..], c);
      assert multiset(s) == multiset([s[0]]) + multiset(s[1..]) by {
        assert s == [s[0]] + s[1..];
      }
      if s[0] == c then rest else [s[0]] + rest
  }

  /** Removing a character works piece by piece. */
  lemma {:induction false} RemoveAllAppend(a: string, b: string, c: char)
    ensures RemoveAll(a + b, c) == RemoveAll(a, c) + RemoveAll(b, c)
    decreases |a|
  {
    if |a| == 0 {
      assert a + b == b;
    } else {
      assert (a + b)[0] == a[0];
      assert (a + b)[1..] == a[1..] + b;
      RemoveAllAppend(a[1..], b, c);
    }
  }
}

=== FILE: wrappers.dfy ===
/** Rust's `Option` and `Result`, as plain datatypes shared by the rest of the model. */
module Wrappers {

  /** Rust's `Option<T>`. */
  datatype Option<+T> = None | Some(value: T)

  /** Rust's `Result<T, E>`, used where the source returns an error value. */
  datatype Result<+T, +E> = Success(value: T) | Failure(error: E) {
    function ToOption(): Option<T>
    {
      match this
      case Success(v) => Some(v)
      case Failure(_) => None
    }
  }
}
